=== FILE: README.md ===
# Request engine of the ovine admin framework, in Dafny

This project models the HTTP request engine of ovine (`packages/core/src/utils/request/index.ts`). This is the `Request` client that UI code calls. It resolves a logical API descriptor such as `"GET rtapi/ping"` into a URL and a method. It builds the body and headers, normalises responses so that `data` is always an object, and serves GET requests from a TTL cache. It can also answer with mock data instead of calling the network. Instance-level and per-call hooks fire around every outcome.

The model is functional:

- **JavaScript values.** Values are the `JsValue.Value` datatype, with integer numbers only. The engine's truthiness tests are written out as `Truthy`, `Present` and `IsPlainObject`.
- **Records.** The request option, the response and the client instance are immutable records in `Options`. An optional field left out is `None` or `Undefined`, so the defaults `method = 'GET'`, `domain = 'api'`, `contentType = 'json'` and `mock = true` are applied exactly where the engine applies them. A missing `expired` is held as 0, and a missing `headers`, `qsOptions` or `fetchOptions` as the empty map, from the moment the record is built. These are the values the engine substitutes at every use of those fields (lines 95, 256 and 379).
- **Foreign code.** Every foreign helper is a field of `Options.Host`: `qsstringify`, `object2formData`, `hasFile`, `JSON.parse`/`stringify`, the template `filter`, `getQuery`, lodash `get`, `Number#toString` and `isExpired`. So is every user function: hooks and mock generators, which the option refers to by `FnId`. None of these has an interpretation beyond the explicit assumptions a lemma states. For example, `Options.ClockAgrees` says that `isExpired` reads back what `Number#toString` wrote and compares it with the clock.
- **Session store.** The store is a `map<string, Value>` and the clock is a `now` parameter.
- **Network.** What the network answers is a `Transport.NetResult` parameter.
- **Side effects.** Hook calls, `onFinish`, mock generation and the network call are recorded in an ordered `Event` trace. A call settles as `Resolved(response)` or `Rejected({option, response, error})`.

Modules follow the engine's components:

| module | component |
|---|---|
| `Strings` | `indexOf`, `split` and ASCII `toUpperCase` |
| `Url` | `getUrlByOption` |
| `Payload` | `getFetchOption` |
| `Normalize` | `wrapResponse` |
| `Cache` | `cacheSourceCtrl` |
| `Mock` | `mockSourceCtrl` |
| `Hooks` | `requestSuccessCtrl`, `requestErrorCtrl` and the status band |
| `Transport` | `fetchSourceCtrl` |
| `Client` | `getReqOption` and `Request.request` |

Some of the engine's behaviour differs from what its comments and naming suggest. The model follows the code in each case:

- The cache is gated on `expired` being truthy (line 97), not on it being positive. A negative TTL therefore writes entries that are never read back (`Cache.NegativeTtlNeverHits`).
- An unknown domain alias is logged as an error but does not stop resolution. The code still concatenates, producing `"undefined/<path>"` (lines 402-405, `Url.MissingAliasPrefix`).
- The embedded-method test is a regular-expression character class (line 391). Any character of `GETPOSUDLACHIN|` followed by a space triggers the split. The embedded method is kept as written, not upper-cased (line 393).
- An out-of-band status runs the error pipeline twice, not once (see Findings). `Client.Request` takes a `Transport.Build` argument: `AsWritten` composes the transport as the engine ships it, with the doubled pipeline, and `Corrected` composes the corrected transport. `Client.NotFoundRejects` states the shipped outcome and `Client.NotFoundRejectsCorrected` the corrected one.

## Model

| member | source | states |
|---|---|---|
| Strings.IndexOf | packages/core/src/utils/request/index.ts:418 | `indexOf` returns -1 exactly when the needle occurs nowhere. Otherwise it returns the first index at which the needle occurs |
| Strings.Split | packages/core/src/utils/request/index.ts:392 | `split` on one character yields at least one part. No part contains the separator, and joining the parts with the separator gives back the input |
| Strings.SplitJoin | packages/core/src/utils/request/index.ts:417 | splitting the join of a non-empty list of parts, none of which contains the separator, gives back exactly that list |
| Url.SplitMethod | packages/core/src/utils/request/index.ts:383-395 | with a class character followed by a space, the method is the text before the first space and the path the text up to the next space; both are space-free and sit at the start of the URL. Without one, the URL is kept and the given method is upper-cased |
| Url.PrefixDomain | packages/core/src/utils/request/index.ts:397-406 | the result equals the path exactly when the path contains "//". Otherwise it is the alias's prefix, a slash and the path. The path is always a suffix of the result |
| Url.PrefixIdempotent | packages/core/src/utils/request/index.ts:399-406 | once the prefix is absolute (contains "//"), prefixing a second time changes nothing |
| Url.MissingAliasPrefix | packages/core/src/utils/request/index.ts:401-405 | an alias missing from the table still yields "undefined/<path>" |
| Url.FilterQuery | packages/core/src/utils/request/index.ts:415-421 | a key survives exactly when its value is not undefined, null, "undefined" or "", and `key=` does not occur in the URL's query part. Surviving values are unchanged |
| Url.AppendQuery | packages/core/src/utils/request/index.ts:417-423 | the URL is kept as a prefix. It is followed by '&' if it already has a '?' and by '?' otherwise, even when no key survives. Then come the encoded surviving keys |
| Url.ResolveUrl | packages/core/src/utils/request/index.ts:375-429 | the query is appended only for the method "GET" with plain-object data. Any other method or data leaves the located URL alone. The method is the split's method |
| Url.DomainsFallBack | packages/core/src/utils/request/index.ts:397 | a per-call `domains` makes the instance table irrelevant; without one, the instance table resolves exactly as if it had been given per call |
| Url.DomainDefaultsToApi | packages/core/src/utils/request/index.ts:379 | a missing `domain` resolves exactly as the alias "api" does |
| Url.PingScenario | packages/core/src/utils/request/index.ts:379-428 | `{url: "GET rtapi/ping"}` with domains `{api: "https://host"}` resolves to `GET https://host/rtapi/ping` |
| Url.DuplicateKeyScenario | packages/core/src/utils/request/index.ts:413-424 | with data `{x: "1", y: 2}`, the URL `.../items?x=1` gets only `y` appended, after '&' |
| Url.SubstringKeyQuirk | packages/core/src/utils/request/index.ts:417-419 | the duplicate test is a substring test: key `d` is dropped because the query holds `id=` |
| Payload.BuildBody | packages/core/src/utils/request/index.ts:279-293 | no body is computed when a body is given, data is falsy, or the method contains GET, HEAD or OPTIONS. Otherwise binary data passes through; files or "form-data" become multipart; "form" becomes url-encoded text and "json" becomes JSON text, each setting its Content-Type; string data is never re-encoded |
| Payload.HeadersOnlyContentType | packages/core/src/utils/request/index.ts:280-292 | only Content-Type can change, and only for form and json bodies |
| Payload.JsonBodyRoundTrip | packages/core/src/utils/request/index.ts:289-291 | a JSON body parses back to the data whenever `JSON.parse` inverts `JSON.stringify` on it, and Content-Type is application/json |
| Payload.BodyStable | packages/core/src/utils/request/index.ts:279-281 | a truthy body that was already built is never rebuilt |
| Payload.BuildFetchOption | packages/core/src/utils/request/index.ts:255-305 | credentials is always "include", whatever `fetchOptions` says. Every `fetchOptions` key other than the six written afterwards passes through unchanged. The URL and method are the resolver's |
| Normalize.WrapResponse | packages/core/src/utils/request/index.ts:309-330 | a missing response becomes `{data:{}}` and undefined data becomes `{}`. Other non-plain data becomes `{value: data}`, or with `transJson` its parse; a failed parse leaves the response as it was. Plain data and all other fields are untouched, and without `transJson` the data is always a plain object |
| Normalize.WrapIdempotent | packages/core/src/utils/request/index.ts:314-329 | normalising a normalised response is a no-op, in either mode |
| Normalize.PlainTextScenario | packages/core/src/utils/request/index.ts:316-319 | the text "plain text" normalises to `{value: "plain text"}` |
| Cache.CacheGet | packages/core/src/utils/request/index.ts:94-124 | a value is returned exactly when the cache is active (truthy `expired`, method GET), both the entry and its timestamp are truthy, and the instant has not passed. That value is the stored entry |
| Cache.CacheSet | packages/core/src/utils/request/index.ts:94-111 | an inactive cache or a falsy resource writes nothing. Otherwise the resource goes under the URL and `now + expired` under `url:timestamp`; no other key changes |
| Cache.SetThenGet | packages/core/src/utils/request/index.ts:103-122 | a value written at `now` reads back unchanged at any instant before `now + expired` |
| Cache.ExpiredMiss | packages/core/src/utils/request/index.ts:114-124 | from `now + expired` on, the written value is no longer returned |
| Cache.NegativeTtlNeverHits | packages/core/src/utils/request/index.ts:95-99 | a negative `expired` passes the gate and writes, but is never read back from `now` on |
| Mock.Generator | packages/core/src/utils/request/index.ts:73-76 | the generator is the keyed entry (under `api`, else `url`, else "") when lodash `get` finds a truthy value there, else the whole source |
| Mock.Synthesize | packages/core/src/utils/request/index.ts:79 | a function generator is called with the option; any other value is the data itself |
| Mock.MockCtrl | packages/core/src/utils/request/index.ts:66-91 | the result is 'none' exactly for a release build, a falsy `mock` flag (default true) or a falsy source. Otherwise it is `{data: generated}` passed through the same success pipeline as a real response |
| Mock.KeyedGeneratorChosen | packages/core/src/utils/request/index.ts:73-76 | for a plain-object source holding the key, the truthy keyed entry is chosen; a falsy entry means the whole source is used |
| Mock.MockDefaultsOn | packages/core/src/utils/request/index.ts:67-69 | with no `mock` flag, a non-release client with a source mocks |
| Hooks.StatusBand | packages/core/src/utils/request/index.ts:157 | the accepted band is 101..399. It covers 2xx and 3xx and every 1xx but 100, which is wider than the success class of section 15.3 of RFC 9110 |
| Hooks.NotFoundIsError | packages/core/src/utils/request/index.ts:157 | 404 is an error status |
| Hooks.SuccessCtrl | packages/core/src/utils/request/index.ts:47-63 | the instance `onSuccess` runs before the per-call one. Each is called with the normalised response's data, the option and the normalised response, and its result replaces `data`; the second sees the first's result. The call returns the response carrying the last hook's result (the input untouched when no hook is set), normalised once more when `onFinish` is set; `onFinish` fires last with that response and no error. Fields other than `data` never change |
| Hooks.ErrorCtrl | packages/core/src/utils/request/index.ts:21-44 | the per-call `onError` runs first. The instance `onError` runs exactly when the per-call one is absent or returned truthy. `onFinish` runs last when set, and nothing else fires. The call always throws `{option, response, error}` |
| Hooks.ErrorFinishesOnce | packages/core/src/utils/request/index.ts:39-43 | one pass of the error pipeline fires `onFinish` once when it is set, never otherwise |
| Transport.Fetch | packages/core/src/utils/request/index.ts:140-175 | the first event is the network call, and the call rejects exactly on a network failure, an unreadable body or a status outside 101..399. A network failure runs the error pipeline on `{data: {}}` and rejects with `{option, {data: {}}, error}`. An unreadable body runs it on the normalised bodiless response, and an out-of-band status on the normalised response; each rejects with that response and its error, after exactly one pass of error events. Any other answer resolves with the success pipeline's response, after exactly its events |
| Transport.FetchAsWritten | packages/core/src/utils/request/index.ts:140-175 | as written: the first event is the network call, and the call rejects on the same inputs as the corrected transport. An out-of-band status logs one error-pipeline pass with the status error and then a second pass with the first thrown object. So `onFinish` fires twice when set, and the rejection's error is that first object wrapping the status error. Every other input behaves as the corrected transport |
| Transport.DoubleErrorPipeline | packages/core/src/utils/request/index.ts:157-171 | as written, `onFinish` fires twice for an out-of-band status; corrected, once, with the status error |
| Transport.DoubleErrorHooks | packages/core/src/utils/request/index.ts:152-171 | as written, an out-of-band status fires the per-call `onError` in both passes, once with the status error and once with the first thrown object. The instance `onError` fires in each pass exactly when that pass's per-call answer allows it |
| Client.Addressed | packages/core/src/utils/request/index.ts:337-338 | `api` becomes `api || url` and `actionAddr` becomes `actionAddr || api`; the address is present exactly when `api` or `url` was, and no other field changes |
| Client.FoldQuery | packages/core/src/utils/request/index.ts:345-352 | when the URL is non-empty and holds a truthy query, the URL is cut before its first '?' and `data` holds the query's keys and the data's, the data's value winning on a shared key; otherwise the option is unchanged. No other field changes |
| Client.ResolveOption | packages/core/src/utils/request/index.ts:333-343 | the call fails exactly when neither `api` nor `url` is present. It fails through the error pipeline with `{data: {}}` as the option and no response, so no per-call hook runs. Otherwise the hooks log pre-request (instance, call) then request (instance, call) |
| Client.RequestHookWrapsResolution | packages/core/src/utils/request/index.ts:362-366 | with only the instance request hook set, the call resolves to that hook's result on exactly the option it would resolve to without the hook |
| Client.ResolveWithoutRequestHooks | packages/core/src/utils/request/index.ts:362-371 | without request hooks, the resolved option is the prepared one with exactly its transport fields replaced: the resolver's URL and method, the built body and headers, and credentials "include" |
| Client.ResolveWithoutHooks | packages/core/src/utils/request/index.ts:334-352 | without option hooks, the resolved option has a present `api` equal to `api || url`, `actionAddr || api`, and the folded data |
| Client.Serve | packages/core/src/utils/request/index.ts:479-500 | after resolution: a truthy cache hit answers `{data: cached}` with no event and no store change; otherwise an enabled mock answers, with exactly the mock's events (generation, success hooks, `onFinish`) and no transport, and is cached; otherwise the transport's result and trace are the call's, and a success is cached. A rejection leaves the store alone |
| Client.Request | packages/core/src/utils/request/index.ts:476-501 | a failed resolution rejects with exactly what the option resolution threw, `{option: {data: {}}, response: undefined, error}`, after its error events and without the transport. A truthy cache hit answers `{data: cached}` after the option hooks, with no mock or transport and no store change. Otherwise an enabled mock answers, its events following the option hooks', and is cached. The transport is used exactly when the cache misses and mocking is disabled, and then the call settles as the chosen transport does, its trace following the option hooks'. A rejection leaves the store alone |
| Client.CachedReplay | packages/core/src/utils/request/index.ts:480-496 | when the first call resolved with truthy data and cached it, a second identical call within the TTL returns the first call's data without the transport and leaves the store as the first call left it |
| Client.MockIgnoresNetwork | packages/core/src/utils/request/index.ts:487-492 | with mocking enabled and a cache miss, the outcome depends neither on the network nor on which transport is composed, and no transport call occurs |
| Client.NotFoundRejects | packages/core/src/utils/request/index.ts:494 | as shipped, a 404 answer rejects with the error being the first thrown `{option, response, error}` object around the status error, fires `onFinish` twice when set, and caches nothing |
| Client.NotFoundRejectsCorrected | packages/core/src/utils/request/index.ts:494 | with the corrected transport, a 404 answer rejects with the status error, fires `onFinish` once when set, and caches nothing |
| Options.SetConfig | packages/core/src/utils/request/index.ts:459-463 | `setConfig` replaces the domain table (absent becomes `{}`) and the release flag, and nothing else |
| Options.NewClient | packages/core/src/utils/request/index.ts:433-463 | a new client has no hooks, and `setConfig` has given it the domain table (absent becomes `{}`) and the release flag |

## Left out

- The XHR upload path `uploadWithProgress` (lines 179-252) is left out: it is event-driven network I/O. This includes the `status === 0` readystate quirk. It also includes the fact that an error on that path never settles its promise.
- `AbortController` and `cancelExecutor` (lines 266-276) are left out. They are a cancellation signal handed to the network.
- The `mockDelay` timer, `await` and logging are left out. The clock is one `now` for the whole call.
- Hooks or generators that throw are not modelled. Every user function returns a value.
- Numbers are integers: floating point and NaN are not modelled.
- `Strings.ToUpper`: maps ASCII letters only, not the full Unicode case mapping of `toUpperCase`.
- `Payload.BuildBody`: `JSON.stringify` always yields text here. In JavaScript it yields `undefined` for a function.
- `Payload.BuildFetchOption`: a `fetchOptions` key that shares its name with a request option field is not modelled as overwriting that field after the merge.
- `Client.ResolveOption`: `{...query, ...params}` with string or array `data` spreads nothing here. JavaScript spreads their indices.
- `Client.ResolveOption`: the engine writes `api`, `actionAddr`, `url` and `data` into the caller's option object (lines 335-351), and `headers` as well. The model returns a new option instead, so the caller's object is not shown changing.
- Object key order is not modelled (maps are unordered), so `qsstringify` receives a map.
- Domain-table lookups of inherited properties such as `constructor` are not modelled.
- The internals of `qsstringify`, `object2formData`, `hasFile`, `filter`, `getQuery`, lodash `get`, `JSON` and `isExpired` are not modelled. `packages/core/src/utils/tool.ts` and `packages/core/src/utils/store.ts` are not part of this model.

## Findings

| source | as written | input that shows it | evidently intended | confidence | as-written member | corrected member |
|---|---|---|---|---|---|---|
| packages/core/src/utils/request/index.ts:152-171 | For a status outside the band, `requestErrorCtrl` throws inside the `try`. The `catch` then calls `requestErrorCtrl` a second time on the thrown object, so the per-call `onError` and `onFinish` fire twice. The instance `onError` runs in each pass where the per-call `onError` is absent or returns something truthy. The rejection's `error` is the first `{option, response, error}` object | any answer with status 404, a readable JSON body and an instance `onFinish` | the error pipeline runs once and the call rejects with the status error | high; not executed | Transport.FetchAsWritten | Transport.Fetch |

=== FILE: cache.dfy ===
/**
 * The GET-only TTL cache (`cacheSourceCtrl`) over the session store. An
 * entry for URL `u` lives under `u`, its expiry instant under `u:timestamp`.
 */
module Cache {

  import opened Wrappers
  import opened JsValue
  import opened Options

  /** `url = ''`. */
  function CacheKey(o: ReqOption): string {
    o.url.GetOr("")
  }

  /** The sibling key holding the expiry instant. */
  function TimestampKey(url: string): string {
    url + ":timestamp"
  }

  /** The cache is consulted only for a truthy `expired` and the method "GET" (the default). */
  predicate CacheActive(o: ReqOption) {
    o.expired != 0 && o.httpMethod.GetOr("GET") == "GET"
  }

  /** A store lookup; a missing key reads as `undefined`. */
  function Lookup(store: Store, key: string): Value {
    if key in store then store[key] else Undefined
  }

  /**
   * `cacheSourceCtrl('get', option)`: the cached value when the cache is
   * active, both keys hold truthy values and the instant has not passed;
   * `undefined` otherwise. Reading never touches the store.
   */
  function CacheGet(host: Host, o: ReqOption, store: Store, now: int): (r: Value)
    ensures !CacheActive(o) ==> r == Undefined
    ensures r != Undefined ==> Truthy(r) && r == Lookup(store, CacheKey(o))
    ensures Truthy(r) <==>
      && CacheActive(o)
      && Truthy(Lookup(store, CacheKey(o)))
      && Truthy(Lookup(store, TimestampKey(CacheKey(o))))
      && !host.isExpired(Lookup(store, TimestampKey(CacheKey(o))), now)
  {
    if !CacheActive(o) then Undefined
    else
      var cached := Lookup(store, CacheKey(o));
      var whenExpired := Lookup(store, TimestampKey(CacheKey(o)));
      if Truthy(cached) && Truthy(whenExpired) && !host.isExpired(whenExpired, now) then cached
      else Undefined
  }

  /**
   * `cacheSourceCtrl('set', option, resource)`: when active and given a
   * truthy resource, store it and the instant `now + expired` (as text);
   * otherwise leave the store as it was. No other key changes.
   */
  function CacheSet(host: Host, o: ReqOption, resource: Value, store: Store, now: int): (r: Store)
    ensures !CacheActive(o) || !Truthy(resource) ==> r == store
    ensures CacheActive(o) && Truthy(resource) ==>
      && Lookup(r, CacheKey(o)) == resource
      && Lookup(r, TimestampKey(CacheKey(o))) == Str(host.numToString(now + o.expired))
    ensures forall k :: k != CacheKey(o) && k != TimestampKey(CacheKey(o)) ==>
      (k in r <==> k in store) && (k in store ==> r[k] == store[k])
  {
    if !CacheActive(o) || !Truthy(resource) then store
    else
      var url := CacheKey(o);
      assert TimestampKey(url) != url by { assert |TimestampKey(url)| > |url|; }
      store[url := resource][TimestampKey(url) := Str(host.numToString(now + o.expired))]
  }

  /** A value written at `now` reads back unchanged at any instant before `now + expired`. */
  lemma SetThenGet(host: Host, o: ReqOption, resource: Value, store: Store, now: int, later: int)
    requires ClockAgrees(host)
    requires CacheActive(o) && Truthy(resource)
    requires later < now + o.expired
    ensures CacheGet(host, o, CacheSet(host, o, resource, store, now), later) == resource
  {
    var url := CacheKey(o);
    assert TimestampKey(url) != url by { assert |TimestampKey(url)| > |url|; }
    var written := CacheSet(host, o, resource, store, now);
    assert Lookup(written, url) == resource;
    assert Lookup(written, TimestampKey(url)) == Str(host.numToString(now + o.expired));
    assert !host.isExpired(Str(host.numToString(now + o.expired)), later);
  }

  /** Once the instant has passed, the entry written at `now` is no longer returned. */
  lemma ExpiredMiss(host: Host, o: ReqOption, resource: Value, store: Store, now: int, later: int)
    requires ClockAgrees(host)
    requires CacheActive(o) && Truthy(resource)
    requires later >= now + o.expired
    ensures CacheGet(host, o, CacheSet(host, o, resource, store, now), later) == Undefined
  {
    var url := CacheKey(o);
    var written := CacheSet(host, o, resource, store, now);
    assert host.isExpired(Lookup(written, TimestampKey(url)), later);
  }

  /**
   * The cache is gated on `expired` being truthy, not positive: a negative
   * TTL still writes, but what it writes is never read back from `now` on.
   */
  lemma NegativeTtlNeverHits(host: Host, o: ReqOption, resource: Value, store: Store, now: int, later: int)
    requires ClockAgrees(host)
    requires o.expired < 0 && o.httpMethod.GetOr("GET") == "GET" && Truthy(resource)
    requires later >= now
    ensures CacheSet(host, o, resource, store, now) != store || (CacheKey(o) in store && store[CacheKey(o)] == resource)
    ensures CacheGet(host, o, CacheSet(host, o, resource, store, now), later) == Undefined
  {
    ExpiredMiss(host, o, resource, store, now, later);
  }
}

=== FILE: client.dfy ===
/**
 * The `Request` class: option resolution (`getReqOption`) and the
 * `request()` entry point, which consults the cache, then the mock, then
 * the transport.
 */
module Client {

  import opened Wrappers
  import opened JsValue
  import opened Strings
  import opened Options
  import opened Url
  import opened Payload
  import opened Normalize
  import opened Hooks
  import opened Cache
  import opened Mock
  import opened Transport

  /** The `{data: {}}` object that stands in for the option when `api` is missing. */
  function BareOption(): ReqOption {
    EmptyOption().(data := Obj(map[]))
  }

  /** `{ ...opt, ...getFetchOption(opt) }`: the transport fields overwrite the option's. */
  function Merge(o: ReqOption, f: FetchOption): ReqOption {
    o.(url := Some(f.url), httpMethod := Some(f.httpMethod), headers := f.headers,
       body := f.body, credentials := Some(f.credentials))
  }

  /** `hook ? await hook(x) : x`: a present option hook's result replaces the option. */
  function Hooked(host: Host, hook: Option<FnId>, x: ReqOption): ReqOption {
    if hook.Some? then host.callOptionHook(hook.value, x) else x
  }

  /** The event a hook slot logs: one when the hook is present, none otherwise. */
  function Logged(hook: Option<FnId>, event: Event): seq<Event> {
    if hook.Some? then [event] else []
  }

  /**
   * Query parameters folded out of the URL: when the URL is non-empty and
   * `getQuery` finds a truthy query in it, the URL is cut before its first
   * '?' and `data` becomes the query's fields overridden by the data's own;
   * otherwise nothing changes. No other field is touched.
   */
  function FoldQuery(host: Host, o: ReqOption): (r: ReqOption)
    ensures var query := if Present(o.url) then host.getQuery(o.url.value) else Undefined;
      && (!Truthy(query) ==> r == o)
      && (Truthy(query) ==>
            var url := o.url.value;
            && r.url == Some(if '?' in url then url[..FirstIndex(url, '?')] else url)
            && r.data.Obj?
            && (forall k :: k in r.data.fields <==> k in Spread(query) || k in Spread(o.data))
            && (forall k :: k in Spread(o.data) ==> r.data.fields[k] == Spread(o.data)[k])
            && (forall k :: k in Spread(query) && k !in Spread(o.data) ==> r.data.fields[k] == Spread(query)[k])
            && r.(url := o.url, data := o.data) == o)
  {
    var query := if Present(o.url) then host.getQuery(o.url.value) else Undefined;
    if Truthy(query) then
      SplitHead(o.url.value, '?');
      o.(url := Some(Split(o.url.value, '?')[0]), data := Obj(Spread(query) + Spread(o.data)))
    else o
  }

  /**
   * The option with `api` and `actionAddr` filled in: `api || url`, then
   * `actionAddr || api`. The address is present exactly when `api` or `url`
   * was, and no other field changes.
   */
  function Addressed(o: ReqOption): (r: ReqOption)
    ensures r.api == (if Present(o.api) then o.api else o.url)
    ensures r.actionAddr == (if Present(o.actionAddr) then o.actionAddr else r.api)
    ensures Present(r.api) <==> Present(o.api) || Present(o.url)
    ensures Present(r.api) ==> Present(r.actionAddr)
    ensures r.(api := o.api, actionAddr := o.actionAddr) == o
  {
    var api := OrElse(o.api, o.url);
    o.(api := api, actionAddr := OrElse(o.actionAddr, api))
  }

  /** The option the pre-request hooks hand on: instance hook first, then the per-call one. */
  function Prepared(host: Host, c: Client, o: ReqOption): ReqOption {
    Hooked(host, o.onPreRequest, Hooked(host, c.onPreRequest, FoldQuery(host, Addressed(o))))
  }

  /** The events the option hooks log, in order: pre-request (instance, call), request (instance, call). */
  function OptionHookEvents(c: Client, o: ReqOption): seq<Event> {
    Logged(c.onPreRequest, PreRequestHook(InstanceHook)) + Logged(o.onPreRequest, PreRequestHook(CallHook))
    + Logged(c.onRequest, RequestHook(InstanceHook)) + Logged(o.onRequest, RequestHook(CallHook))
  }

  /**
   * `getReqOption`. Without `api` and `url` it fails through the error
   * pipeline with the bare `{data: {}}` object as option and no response,
   * so only instance-level error hooks can run. Otherwise it succeeds and
   * the option hooks log their events in order; what the resolved option
   * holds is stated by `RequestHookWrapsResolution`,
   * `ResolveWithoutRequestHooks` and `ResolveWithoutHooks`.
   */
  function ResolveOption(host: Host, c: Client, o: ReqOption): (r: Result<Run<ReqOption>, Run<ErrorSource>>)
    ensures r.Failure? <==> !Present(o.api) && !Present(o.url)
    ensures r.Failure? ==> r.error == ErrorCtrl(host, c, MissingApi, BareOption(), None)
    ensures r.Failure? ==> ErrorHook(CallHook, None, MissingApi) !in r.error.events
    ensures r.Success? ==> r.value.events == OptionHookEvents(c, o)
  {
    if !Present(Addressed(o).api) then
      Failure(ErrorCtrl(host, c, MissingApi, BareOption(), None))
    else
      var p := Prepared(host, c, o);
      var merged := Merge(p, BuildFetchOption(host, c.domains, p));
      Success(Run(Hooked(host, o.onRequest, Hooked(host, c.onRequest, merged)), OptionHookEvents(c, o)))
  }

  /**
   * The instance request hook sees exactly the option the call would
   * resolve to without it, and its result is what the call resolves to.
   */
  lemma RequestHookWrapsResolution(host: Host, c: Client, o: ReqOption)
    requires Present(o.api) || Present(o.url)
    requires c.onRequest.Some? && o.onRequest.None?
    ensures ResolveOption(host, c, o).Success? && ResolveOption(host, c.(onRequest := None), o).Success?
    ensures ResolveOption(host, c, o).value.value
         == host.callOptionHook(c.onRequest.value, ResolveOption(host, c.(onRequest := None), o).value.value)
  {
  }

  /**
   * Without request hooks the resolved option is the prepared one with
   * exactly its transport fields replaced: the resolver's URL and method,
   * the built body and headers, and credentials "include".
   */
  lemma ResolveWithoutRequestHooks(host: Host, c: Client, o: ReqOption)
    requires Present(o.api) || Present(o.url)
    requires c.onRequest.None? && o.onRequest.None?
    ensures ResolveOption(host, c, o).Success?
    ensures var p := Prepared(host, c, o);
      var t := ResolveUrl(host, c.domains, p);
      var b := BuildBody(host, p, t.httpMethod);
      var ro := ResolveOption(host, c, o).value.value;
      && ro.url == Some(t.url) && ro.httpMethod == Some(t.httpMethod)
      && ro.headers == b.headers && ro.body == b.body && ro.credentials == Some("include")
      && ro.(url := p.url, httpMethod := p.httpMethod, headers := p.headers, body := p.body,
             credentials := p.credentials) == p
  {
  }

  /**
   * Without any option hook the resolved option carries the filled-in
   * address (`api || url`, then `actionAddr || api`) and the folded data.
   */
  lemma ResolveWithoutHooks(host: Host, c: Client, o: ReqOption)
    requires Present(o.api) || Present(o.url)
    requires OptionHookEvents(c, o) == []
    ensures ResolveOption(host, c, o).Success?
    ensures var ro := ResolveOption(host, c, o).value.value;
      && Present(ro.api) && ro.api == OrElse(o.api, o.url) && ro.actionAddr == OrElse(o.actionAddr, ro.api)
      && ro.data == FoldQuery(host, Addressed(o)).data
  {
  }

  /** The result of one `request()` call: how it settled, the store after it, and its events. */
  datatype Outcome = Outcome(settled: Settled, store: Store, events: seq<Event>)

  /** The transport was used. */
  predicate Transported(events: seq<Event>) {
    exists i :: 0 <= i < |events| && events[i].TransportCall?
  }

  /**
   * `request()` after the option is resolved: a truthy cache entry answers
   * `{data: cached}` at once; otherwise a mock answers, and is cached;
   * otherwise the transport of `build` answers, and a successful answer is
   * cached. The events are those after the option hooks.
   */
  function Serve(host: Host, c: Client, ro: ReqOption, store: Store, now: int, net: NetResult, build: Build): (r: Outcome)
    ensures r.settled.Rejected? ==> r.store == store
    ensures var cached := CacheGet(host, ro, store, now);
      && (Truthy(cached) ==> r == Outcome(Resolved(Response(cached, map[])), store, []))
      && (!Truthy(cached) && !MockDisabled(c, ro) ==>
            && r.settled == Resolved(MockCtrl(host, c, ro).run.value)
            && r.events == MockCtrl(host, c, ro).run.events
            && r.store == CacheSet(host, ro, r.settled.response.data, store, now)
            && !Transported(r.events))
      && (!Truthy(cached) && MockDisabled(c, ro) ==>
            && r.settled == Transmit(host, c, ro, net, build).value
            && r.events == Transmit(host, c, ro, net, build).events
            && Transported(r.events)
            && (r.settled.Resolved? ==> r.store == CacheSet(host, ro, r.settled.response.data, store, now)))
  {
    var cached := CacheGet(host, ro, store, now);
    if Truthy(cached) then
      Outcome(Resolved(Response(cached, map[])), store, [])
    else match MockCtrl(host, c, ro)
      case Mocked(run) =>
        MockNeverTransports(host, c, ro);
        Outcome(Resolved(run.value), CacheSet(host, ro, run.value.data, store, now), run.events)
      case NoMock =>
        var sent := Transmit(host, c, ro, net, build);
        assert Transported(sent.events) by { assert sent.events[0].TransportCall?; }
        if sent.value.Rejected? then Outcome(sent.value, store, sent.events)
        else Outcome(sent.value, CacheSet(host, ro, sent.value.response.data, store, now), sent.events)
  }

  /**
   * `request()`: resolve the option, then consult the cache, the mock and
   * the transport in that order. `Request(..., AsWritten)` is the engine as
   * it ships; `Request(..., Corrected)` runs the error pipeline once on a
   * status error. A rejection leaves the store alone.
   */
  function Request(host: Host, c: Client, o: ReqOption, store: Store, now: int, net: NetResult, build: Build): (r: Outcome)
    ensures ResolveOption(host, c, o).Failure? ==>
      var thrown := ResolveOption(host, c, o).error;
      && r == Outcome(Rejected(thrown.value), store, thrown.events)
      && r.settled.thrown == ErrorSource(BareOption(), None, MissingApi)
      && !Transported(r.events)
    ensures r.settled.Rejected? ==> r.store == store
    ensures ResolveOption(host, c, o).Success? ==>
      var ro := ResolveOption(host, c, o).value.value;
      var cached := CacheGet(host, ro, store, now);
      var sent := Transmit(host, c, ro, net, build);
      && (Truthy(cached) ==> r == Outcome(Resolved(Response(cached, map[])), store, OptionHookEvents(c, o)))
      && (!Truthy(cached) && !MockDisabled(c, ro) ==>
            && r.settled == Resolved(MockCtrl(host, c, ro).run.value)
            && r.events == OptionHookEvents(c, o) + MockCtrl(host, c, ro).run.events
            && r.store == CacheSet(host, ro, r.settled.response.data, store, now))
      && (Transported(r.events) <==> !Truthy(cached) && MockDisabled(c, ro))
      && (Transported(r.events) ==> r.settled == sent.value && r.events == OptionHookEvents(c, o) + sent.events)
      && (Transported(r.events) && r.settled.Resolved? ==>
            r.store == CacheSet(host, ro, r.settled.response.data, store, now))
  {
    match ResolveOption(host, c, o)
    case Failure(e) =>
      assert !Transported(e.events);
      Outcome(Rejected(e.value), store, e.events)
    case Success(resolved) =>
      OptionHooksOnly(c, o);
      var served := Serve(host, c, resolved.value, store, now, net, build);
      TransportedConcat(resolved.events, served.events);
      Outcome(served.settled, served.store, resolved.events + served.events)
  }

  /** The option hooks log nothing but hook events: never a transport call, never `onFinish`. */
  lemma OptionHooksOnly(c: Client, o: ReqOption)
    ensures forall i :: 0 <= i < |OptionHookEvents(c, o)| ==>
      OptionHookEvents(c, o)[i].PreRequestHook? || OptionHookEvents(c, o)[i].RequestHook?
    ensures !Transported(OptionHookEvents(c, o))
  {
  }

  /** A trace is transported exactly when one of its halves is. */
  lemma TransportedConcat(a: seq<Event>, b: seq<Event>)
    ensures Transported(a + b) <==> Transported(a) || Transported(b)
  {
    if Transported(a + b) {
      var i :| 0 <= i < |a + b| && (a + b)[i].TransportCall?;
      if i >= |a| { assert b[i - |a|].TransportCall?; }
    }
    if Transported(a) {
      var i :| 0 <= i < |a| && a[i].TransportCall?;
      assert (a + b)[i].TransportCall?;
    }
    if Transported(b) {
      var i :| 0 <= i < |b| && b[i].TransportCall?;
      assert (a + b)[|a| + i].TransportCall?;
    }
  }

  /** A mocked response never involves the transport. */
  lemma MockNeverTransports(host: Host, c: Client, o: ReqOption)
    requires MockCtrl(host, c, o).Mocked?
    ensures !Transported(MockCtrl(host, c, o).run.events)
  {
    var events := MockCtrl(host, c, o).run.events;
    forall i | 0 <= i < |events|
      ensures !events[i].TransportCall?
    {
      if i > 0 {
        assert events[i] == events[1..][i - 1];
        assert events[i] in events[1..];
      }
    }
  }

  /**
   * A second identical call within the TTL is answered from the cache: it
   * returns the first call's data without the transport and leaves the store
   * as the first call left it.
   */
  lemma CachedReplay(host: Host, c: Client, o: ReqOption, store: Store, now: int, later: int,
                     net: NetResult, net': NetResult, build: Build)
    requires ClockAgrees(host)
    requires ResolveOption(host, c, o).Success?
    requires var ro := ResolveOption(host, c, o).value.value;
      CacheActive(ro) && !Truthy(CacheGet(host, ro, store, now)) && later < now + ro.expired
    ensures var first := Request(host, c, o, store, now, net, build);
      var second := Request(host, c, o, first.store, later, net', build);
      first.settled.Resolved? && Truthy(first.settled.response.data) ==>
        && second.settled == Resolved(Response(first.settled.response.data, map[]))
        && !Transported(second.events)
        && second.store == first.store
  {
    var ro := ResolveOption(host, c, o).value.value;
    var first := Request(host, c, o, store, now, net, build);
    if first.settled.Resolved? && Truthy(first.settled.response.data) {
      var data := first.settled.response.data;
      assert first.store == CacheSet(host, ro, data, store, now);
      SetThenGet(host, ro, data, store, now, later);
    }
  }

  /**
   * With mocking enabled and no cache hit, the network is never consulted:
   * the call comes out the same whatever the network would have done, and
   * whichever transport the request composes.
   */
  lemma MockIgnoresNetwork(host: Host, c: Client, o: ReqOption, store: Store, now: int,
                           net: NetResult, net': NetResult, build: Build, build': Build)
    requires ResolveOption(host, c, o).Success?
    requires var ro := ResolveOption(host, c, o).value.value;
      !Truthy(CacheGet(host, ro, store, now)) && !MockDisabled(c, ro)
    ensures Request(host, c, o, store, now, net, build) == Request(host, c, o, store, now, net', build')
    ensures !Transported(Request(host, c, o, store, now, net, build).events)
  {
  }

  /**
   * As the engine ships, a 404 answer runs the error pipeline twice: the
   * call rejects with the first thrown object as its error, `onFinish` fires
   * twice when set, and nothing is cached.
   */
  lemma NotFoundRejects(host: Host, c: Client, o: ReqOption, store: Store, now: int,
                        v: Value, meta: map<string, Value>)
    requires ResolveOption(host, c, o).Success?
    requires var ro := ResolveOption(host, c, o).value.value;
      !Truthy(CacheGet(host, ro, store, now)) && MockDisabled(c, ro)
    ensures var ro := ResolveOption(host, c, o).value.value;
      var resp := WrapResponse(host, Some(Answer(404, meta, v)), false);
      var r := Request(host, c, o, store, now, Answered(404, Success(v), meta), AsWritten);
      && r.settled.Rejected?
      && r.settled.thrown.error == Rethrown(ErrorSource(ro, Some(resp), StatusOutOfBand(404)))
      && FinishCount(r.events) == 2 * Slot(c.onFinish)
      && Transported(r.events) && r.store == store
  {
    NotFoundIsError();
    var ro := ResolveOption(host, c, o).value.value;
    var net := Answered(404, Success(v), meta);
    var sent := Transmit(host, c, ro, net, AsWritten);
    var r := Request(host, c, o, store, now, net, AsWritten);
    assert Transported(r.events) && r.settled == sent.value && r.events == OptionHookEvents(c, o) + sent.events;
    OptionHooksNeverFinish(c, o);
    FinishCountAppend(OptionHookEvents(c, o), sent.events);
  }

  /** With the corrected transport, a 404 rejects with the status error and `onFinish` fires once when set. */
  lemma NotFoundRejectsCorrected(host: Host, c: Client, o: ReqOption, store: Store, now: int,
                                 v: Value, meta: map<string, Value>)
    requires ResolveOption(host, c, o).Success?
    requires var ro := ResolveOption(host, c, o).value.value;
      !Truthy(CacheGet(host, ro, store, now)) && MockDisabled(c, ro)
    ensures var r := Request(host, c, o, store, now, Answered(404, Success(v), meta), Corrected);
      && r.settled.Rejected? && r.settled.thrown.error == StatusOutOfBand(404)
      && FinishCount(r.events) == Slot(c.onFinish)
      && Transported(r.events) && r.store == store
  {
    NotFoundIsError();
    var ro := ResolveOption(host, c, o).value.value;
    var net := Answered(404, Success(v), meta);
    var sent := Transmit(host, c, ro, net, Corrected);
    var r := Request(host, c, o, store, now, net, Corrected);
    assert Transported(r.events) && r.settled == sent.value && r.events == OptionHookEvents(c, o) + sent.events;
    OptionHooksNeverFinish(c, o);
    FinishCountAppend(OptionHookEvents(c, o), sent.events);
  }

  /** The option hooks never fire `onFinish`. */
  lemma OptionHooksNeverFinish(c: Client, o: ReqOption)
    ensures FinishCount(OptionHookEvents(c, o)) == 0
  {
    OptionHooksOnly(c, o);
    FinishCountNone(OptionHookEvents(c, o));
  }
}

=== FILE: hooks.dfy ===
/**
 * The outcome rules: the status band, the success hook chain
 * (`requestSuccessCtrl`) and the error pipeline (`requestErrorCtrl`).
 */
module Hooks {

  import opened Wrappers
  import opened JsValue
  import opened Options
  import opened Normalize

  /** `status <= 100 || status >= 400`: the statuses routed to the error pipeline. */
  predicate IsErrorStatus(status: int) {
    status <= 100 || status >= 400
  }

  /**
   * The accepted band is 101..399. Against the classes of section 15 of
   * RFC 9110 it accepts all of 2xx (successful) and 3xx (redirection), and
   * also every 1xx (informational) status except 100.
   */
  lemma StatusBand(status: int)
    ensures !IsErrorStatus(status) <==> 101 <= status <= 399
    ensures 200 <= status <= 299 ==> !IsErrorStatus(status)
    ensures 300 <= status <= 399 ==> !IsErrorStatus(status)
    ensures 400 <= status <= 599 ==> IsErrorStatus(status)
    ensures status == 100 ==> IsErrorStatus(status)
    ensures 101 <= status <= 199 ==> !IsErrorStatus(status)
  {
  }

  /** A 404 is an error outcome even though the transport delivered it. */
  lemma NotFoundIsError()
    ensures IsErrorStatus(404)
  {
  }

  /** One present hook slot counts one event. */
  function Slot(h: Option<FnId>): nat {
    if h.Some? then 1 else 0
  }

  /** One success hook: it sees the normalised response and its result replaces `data`. */
  function ApplySuccessHook(host: Host, id: FnId, site: Site, o: ReqOption, resp: Response): (r: Run<Response>)
    ensures r.value.meta == resp.meta
  {
    var w := WrapResponse(host, Some(resp), false);
    var out := host.callSuccessHook(id, w.data, o, w);
    Run(w.(data := out), [SuccessHook(site, w, out)])
  }

  /** The success events of one call, before `onFinish`. */
  function SuccessHooks(host: Host, c: Client, resp: Response, o: ReqOption): (r: Run<Response>)
    ensures |r.events| == Slot(c.onSuccess) + Slot(o.onSuccess)
    ensures r.value.meta == resp.meta
  {
    var first := if c.onSuccess.Some? then ApplySuccessHook(host, c.onSuccess.value, InstanceHook, o, resp)
                 else Run(resp, []);
    var second := if o.onSuccess.Some? then ApplySuccessHook(host, o.onSuccess.value, CallHook, o, first.value)
                  else Run(first.value, []);
    Run(second.value, first.events + second.events)
  }

  /**
   * `requestSuccessCtrl`: the instance `onSuccess` runs first, then the
   * per-call one, each seeing the normalised response and replacing `data`
   * with its result (the second sees the first's result); then the instance
   * `onFinish` sees the normalised response, with no error. Fields other than
   * `data` never change, and with no hook at all the response is untouched.
   */
  function SuccessCtrl(host: Host, c: Client, resp: Response, o: ReqOption): (r: Run<Response>)
    ensures |r.events| == Slot(c.onSuccess) + Slot(o.onSuccess) + Slot(c.onFinish)
    ensures r.value.meta == resp.meta
    ensures c.onSuccess.Some? ==>
      && r.events[0].SuccessHook? && r.events[0].site == InstanceHook
      && r.events[0].arg == WrapResponse(host, Some(resp), false)
      && r.events[0].out == host.callSuccessHook(c.onSuccess.value, r.events[0].arg.data, o, r.events[0].arg)
    ensures o.onSuccess.Some? ==> var i := Slot(c.onSuccess);
      && r.events[i].SuccessHook? && r.events[i].site == CallHook
      && r.events[i].arg == WrapResponse(host, Some(if i == 1 then resp.(data := r.events[0].out) else resp), false)
      && r.events[i].out == host.callSuccessHook(o.onSuccess.value, r.events[i].arg.data, o, r.events[i].arg)
    ensures var hooked := Slot(c.onSuccess) + Slot(o.onSuccess);
      var last := if hooked > 0 then resp.(data := r.events[hooked - 1].out) else resp;
      && (c.onFinish.Some? ==>
            && r.value == WrapResponse(host, Some(last), false)
            && r.events[|r.events| - 1] == Finish(Some(r.value), None))
      && (c.onFinish.None? ==> r.value == last)
    ensures c.onFinish.Some? ==> IsPlainObject(r.value.data)
    ensures forall e :: e in r.events ==> e.SuccessHook? || e.Finish?
  {
    var hooks := SuccessHooks(host, c, resp, o);
    if c.onFinish.Some? then
      var w := WrapResponse(host, Some(hooks.value), false);
      Run(w, hooks.events + [Finish(Some(w), None)])
    else hooks
  }

  /** The order the error pipeline fires in: per-call hook, instance hook, `onFinish`. */
  function ErrorRank(e: Event): nat {
    match e
    case ErrorHook(CallHook, _, _) => 0
    case ErrorHook(InstanceHook, _, _) => 1
    case Finish(_, _) => 2
    case _ => 3
  }

  /** The instance `onError` runs unless a per-call `onError` ran and returned something falsy. */
  predicate InstanceErrorRuns(host: Host, c: Client, err: Error, o: ReqOption, resp: Option<Response>) {
    c.onError.Some? && (o.onError.None? || Truthy(host.callErrorHook(o.onError.value, resp, o, err)))
  }

  /**
   * `requestErrorCtrl`: the per-call `onError` runs first when present; the
   * instance `onError` runs exactly when the per-call one is absent or
   * returned something truthy; `onFinish` always runs last when present,
   * with the error; and the call always throws `{option, response, error}`.
   */
  function ErrorCtrl(host: Host, c: Client, err: Error, o: ReqOption, resp: Option<Response>): (r: Run<ErrorSource>)
    ensures r.value == ErrorSource(o, resp, err)
    ensures ErrorHook(CallHook, resp, err) in r.events <==> o.onError.Some?
    ensures ErrorHook(InstanceHook, resp, err) in r.events <==> InstanceErrorRuns(host, c, err, o, resp)
    ensures Finish(resp, Some(err)) in r.events <==> c.onFinish.Some?
    ensures c.onFinish.Some? ==> r.events[|r.events| - 1] == Finish(resp, Some(err))
    ensures forall e :: e in r.events ==>
      e in {ErrorHook(CallHook, resp, err), ErrorHook(InstanceHook, resp, err), Finish(resp, Some(err))}
    ensures forall i, j :: 0 <= i < j < |r.events| ==> ErrorRank(r.events[i]) < ErrorRank(r.events[j])
  {
    var callEvents := if o.onError.Some? then [ErrorHook(CallHook, resp, err)] else [];
    var instanceEvents := if InstanceErrorRuns(host, c, err, o, resp) then [ErrorHook(InstanceHook, resp, err)] else [];
    var finishEvents := if c.onFinish.Some? then [Finish(resp, Some(err))] else [];
    Run(ErrorSource(o, resp, err), callEvents + instanceEvents + finishEvents)
  }

  /** Number of `onFinish` events in a trace. */
  function FinishCount(events: seq<Event>): nat {
    if events == [] then 0
    else (if events[0].Finish? then 1 else 0) + FinishCount(events[1..])
  }

  lemma {:induction false} FinishCountAppend(a: seq<Event>, b: seq<Event>)
    ensures FinishCount(a + b) == FinishCount(a) + FinishCount(b)
  {
    if a == [] {
      assert a + b == b;
    } else {
      assert (a + b)[1..] == a[1..] + b;
      FinishCountAppend(a[1..], b);
    }
  }

  /** A trace without `onFinish` events counts none. */
  lemma {:induction false} FinishCountNone(events: seq<Event>)
    requires forall i :: 0 <= i < |events| ==> !events[i].Finish?
    ensures FinishCount(events) == 0
  {
    if events != [] {
      FinishCountNone(events[1..]);
    }
  }

  /** The error pipeline fires `onFinish` exactly once when it is set, and never otherwise. */
  lemma ErrorFinishesOnce(host: Host, c: Client, err: Error, o: ReqOption, resp: Option<Response>)
    ensures FinishCount(ErrorCtrl(host, c, err, o, resp).events) == Slot(c.onFinish)
  {
    var callEvents := if o.onError.Some? then [ErrorHook(CallHook, resp, err)] else [];
    var instanceEvents := if InstanceErrorRuns(host, c, err, o, resp) then [ErrorHook(InstanceHook, resp, err)] else [];
    var finishEvents := if c.onFinish.Some? then [Finish(resp, Some(err))] else [];
    FinishCountAppend(callEvents, instanceEvents);
    FinishCountAppend(callEvents + instanceEvents, finishEvents);
    assert FinishCount(finishEvents) == Slot(c.onFinish) by {
      if c.onFinish.Some? { assert finishEvents[1..] == []; }
    }
  }
}

=== FILE: js_value.dfy ===
/**
 * The slice of JavaScript's value universe the request engine inspects:
 * truthiness, "plain object" shape and object spreading.
 */
module JsValue {

  import opened Wrappers

  /** Identifies a JavaScript function; what calling it does is left to `Options.Host`. */
  type FnId = nat

  /** The three binary payload classes `getFetchOption` passes through untouched. */
  datatype BinaryKind = FormDataBox | BlobBox | ArrayBufferBox

  /**
   * A JavaScript value. Numbers are integers only; `Obj` is a plain object
   * (the only shape lodash's `isPlainObject` accepts), `Arr` an array,
   * `Fn` a function and `Binary` an instance of FormData, Blob or ArrayBuffer.
   */
  datatype Value =
    | Undefined
    | Null
    | Bool(b: bool)
    | Num(n: int)
    | Str(s: string)
    | Obj(fields: map<string, Value>)
    | Arr(items: seq<Value>)
    | Fn(id: FnId)
    | Binary(kind: BinaryKind)

  /** JavaScript's ToBoolean. */
  predicate Truthy(v: Value) {
    match v
    case Undefined => false
    case Null => false
    case Bool(b) => b
    case Num(n) => n != 0
    case Str(s) => s != ""
    case _ => true
  }

  /** lodash `isPlainObject`. */
  predicate IsPlainObject(v: Value) {
    v.Obj?
  }

  /** ToBoolean of an optional string field: missing and `""` are falsy. */
  predicate Present(s: Option<string>) {
    s.Some? && s.value != ""
  }

  /** `a || b` on optional strings. */
  function OrElse(a: Option<string>, b: Option<string>): (r: Option<string>)
  {
    if Present(a) then a else b
  }

  /** The own enumerable properties `{ ...v }` copies out of a plain object; other values spread nothing. */
  function Spread(v: Value): (m: map<string, Value>)
  {
    if v.Obj? then v.fields else map[]
  }

  /** `v[key]` for a plain object; every other lookup is `undefined`. */
  function Member(v: Value, key: string): (r: Value)
  {
    if v.Obj? && key in v.fields then v.fields[key] else Undefined
  }
}

=== FILE: mock.dfy ===
/** Mock selection (`mockSourceCtrl`): gating, then generator lookup. */
module Mock {

  import opened Wrappers
  import opened JsValue
  import opened Options
  import opened Hooks

  /** `mock = true`: a missing flag means mocking is wanted. */
  function MockFlag(o: ReqOption): Value {
    if o.mock == Undefined then Bool(true) else o.mock
  }

  /** Mocking is skipped for a release build, a falsy `mock` flag or a falsy `mockSource`. */
  predicate MockDisabled(c: Client, o: ReqOption) {
    Truthy(c.isRelease) || !Truthy(MockFlag(o)) || !Truthy(o.mockSource)
  }

  /** `api || url || ''`: the key the mock table is searched under. */
  function MockKey(o: ReqOption): string {
    OrElse(o.api, o.url).GetOr("")
  }

  /**
   * The generator: the source's entry under the key when lodash `get` finds
   * something truthy there, the whole source otherwise.
   */
  function Generator(host: Host, o: ReqOption): (g: Value)
    ensures Truthy(host.pathGet(o.mockSource, MockKey(o))) ==> g == Member(o.mockSource, MockKey(o))
    ensures !Truthy(host.pathGet(o.mockSource, MockKey(o))) ==> g == o.mockSource
  {
    var key := MockKey(o);
    if Truthy(host.pathGet(o.mockSource, key)) then Member(o.mockSource, key) else o.mockSource
  }

  /** A function generator is called with the option; any other value is the data itself. */
  function Synthesize(host: Host, g: Value, o: ReqOption): (d: Value)
    ensures g.Fn? ==> d == host.callGenerator(g.id, o)
    ensures !g.Fn? ==> d == g
  {
    if g.Fn? then host.callGenerator(g.id, o) else g
  }

  /** Either the `'none'` sentinel or a mocked response with the events it caused. */
  datatype MockResult = NoMock | Mocked(run: Run<Response>)

  /**
   * `mockSourceCtrl`: `'none'` exactly when mocking is disabled; otherwise
   * the response `{data: generated}` after the success hooks, exactly as a
   * real response would go through them.
   */
  function MockCtrl(host: Host, c: Client, o: ReqOption): (r: MockResult)
    ensures r.NoMock? <==> MockDisabled(c, o)
    ensures r.Mocked? ==>
      var fake := Response(Synthesize(host, Generator(host, o), o), map[]);
      && |r.run.events| >= 1 && r.run.events[0] == MockGenerated
      && Run(r.run.value, r.run.events[1..]) == SuccessCtrl(host, c, fake, o)
  {
    if MockDisabled(c, o) then NoMock
    else
      var fake := Response(Synthesize(host, Generator(host, o), o), map[]);
      var success := SuccessCtrl(host, c, fake, o);
      var events := [MockGenerated] + success.events;
      assert events[1..] == success.events;
      Mocked(Run(success.value, events))
  }

  /**
   * With a plain-object source that holds the key, and lodash `get` reading
   * that key as a plain property, the keyed entry is the generator when it is
   * truthy; a source without a truthy entry is used whole.
   */
  lemma KeyedGeneratorChosen(host: Host, o: ReqOption)
    requires o.mockSource.Obj? && MockKey(o) in o.mockSource.fields
    requires host.pathGet(o.mockSource, MockKey(o)) == o.mockSource.fields[MockKey(o)]
    ensures Truthy(o.mockSource.fields[MockKey(o)]) ==> Generator(host, o) == o.mockSource.fields[MockKey(o)]
    ensures !Truthy(o.mockSource.fields[MockKey(o)]) ==> Generator(host, o) == o.mockSource
  {
  }

  /** Without a `mock` flag, a non-release client with a truthy source mocks. */
  lemma MockDefaultsOn(c: Client, o: ReqOption)
    requires o.mock == Undefined && !Truthy(c.isRelease) && Truthy(o.mockSource)
    ensures !MockDisabled(c, o)
  {
  }
}

=== FILE: normalize.dfy ===
/** Response normalisation (`wrapResponse`): make `data` a plain object. */
module Normalize {

  import opened Wrappers
  import opened JsValue
  import opened Options

  /** The object that stands in for a missing response. */
  function EmptyResponse(): Response {
    Response(Obj(map[]), map[])
  }

  /**
   * `wrapResponse(response, transJson)`. A missing response becomes
   * `{data: {}}` and an undefined `data` becomes `{}`. Other non-plain data
   * is wrapped as `{value: data}`, or, with `transJson`, replaced by its
   * parse, a failed parse leaving the response as it was. Plain-object data
   * and every other field are left alone.
   */
  function WrapResponse(host: Host, response: Option<Response>, transJson: bool): (r: Response)
    ensures response.None? ==> r == EmptyResponse()
    ensures response.Some? ==> r.meta == response.value.meta
    ensures response.Some? && IsPlainObject(response.value.data) ==> r == response.value
    ensures response.Some? && response.value.data == Undefined ==> r.data == Obj(map[])
    ensures response.Some? && !IsPlainObject(response.value.data) && response.value.data != Undefined ==>
      if !transJson then r.data == Obj(map["value" := response.value.data])
      else match host.jsonParse(response.value.data)
        case None => r == response.value
        case Some(v) => r.data == v
    ensures !transJson ==> IsPlainObject(r.data)
  {
    match response
    case None => EmptyResponse()
    case Some(res) =>
      if res.data == Undefined then res.(data := Obj(map[]))
      else if IsPlainObject(res.data) then res
      else if !transJson then res.(data := Obj(map["value" := res.data]))
      else match host.jsonParse(res.data)
        case Some(v) => res.(data := v)
        case None => res
  }

  /**
   * Normalising a normalised response is a no-op, in either mode: the first
   * pass leaves plain-object data, which every later pass keeps.
   */
  lemma WrapIdempotent(host: Host, response: Option<Response>, transJson: bool)
    ensures var once := WrapResponse(host, response, false);
      WrapResponse(host, Some(once), transJson) == once
  {
  }

  /** A 200 whose body is the text "plain text" normalises to `{data: {value: "plain text"}}`. */
  lemma PlainTextScenario(host: Host, meta: map<string, Value>)
    ensures WrapResponse(host, Some(Response(Str("plain text"), meta)), false).data
         == Obj(map["value" := Str("plain text")])
  {
  }
}

=== FILE: options.dfy ===
/**
 * The records the request engine passes around (`ReqOption`, responses,
 * the client instance) and the foreign collaborators it calls out to.
 */
module Options {

  import opened Wrappers
  import opened JsValue

  /**
   * A request descriptor. `None` / `Undefined` stand for a field left out,
   * so the engine's defaults (`method = 'GET'`, held in `httpMethod`, `domain = 'api'`,
   * `contentType = 'json'`, `mock = true`) are applied where the engine
   * applies them. Hooks are function references.
   * A missing `headers`, `qsOptions` or `fetchOptions` is the empty map and a
   * missing `expired` is 0, which is what the engine substitutes for them.
   */
  datatype ReqOption = ReqOption(
    api: Option<string>,
    url: Option<string>,
    actionAddr: Option<string>,
    httpMethod: Option<string>,
    domain: Option<string>,
    domains: Option<map<string, string>>,
    data: Value,
    body: Value,
    headers: map<string, string>,
    contentType: Option<string>,
    qsOptions: map<string, Value>,
    fetchOptions: map<string, Value>,
    credentials: Option<string>,
    mock: Value,
    mockSource: Value,
    expired: int,
    onPreRequest: Option<FnId>,
    onRequest: Option<FnId>,
    onSuccess: Option<FnId>,
    onError: Option<FnId>
  )

  /** An option with every field left out. */
  function EmptyOption(): ReqOption {
    ReqOption(None, None, None, None, None, None, Undefined, Undefined, map[], None,
              map[], map[], None, Undefined, Undefined, 0, None, None, None, None)
  }

  /**
   * A response: its `data` and every other field (`status`, `statusText`,
   * `headers`, ...) kept together in `meta`.
   */
  datatype Response = Response(data: Value, meta: map<string, Value>)

  /** What went wrong; `Rethrown` carries an error object that was itself thrown. */
  datatype Error =
    | MissingApi
    | NetworkError(cause: Value)
    | BodyUnreadable(cause: Value)
    | StatusOutOfBand(status: int)
    | Rethrown(source: ErrorSource)

  /** The `{option, response, error}` object every failed request throws. */
  datatype ErrorSource = ErrorSource(option: ReqOption, response: Option<Response>, error: Error)

  /** How a call to `request()` settles. */
  datatype Settled = Resolved(response: Response) | Rejected(thrown: ErrorSource)

  /** Which of the two hook slots ran. */
  datatype Site = InstanceHook | CallHook

  /** The observable side effects of one call, in the order they happen. */
  datatype Event =
    | PreRequestHook(site: Site)
    | RequestHook(site: Site)
    | SuccessHook(site: Site, arg: Response, out: Value)
    | ErrorHook(site: Site, response: Option<Response>, error: Error)
    | Finish(response: Option<Response>, failure: Option<Error>)
    | MockGenerated
    | TransportCall(url: string, httpMethod: string)

  /** A computed value together with the events that computing it caused. */
  datatype Run<T> = Run(value: T, events: seq<Event>)

  /** The `Request` instance: its configuration and its hook slots. */
  datatype Client = Client(
    domains: map<string, string>,
    isRelease: Value,
    onPreRequest: Option<FnId>,
    onRequest: Option<FnId>,
    onSuccess: Option<FnId>,
    onError: Option<FnId>,
    onFinish: Option<FnId>
  )

  /** The session store the cache writes into. */
  type Store = map<string, Value>

  /**
   * The collaborators whose code is not part of this model: the query-string
   * and form-data encoders, `hasFile`, `JSON`, template `filter`, `getQuery`,
   * lodash `get`, `Number#toString`, `isExpired`, and what calling a user
   * function does. `jsonParse` answers `None` where `JSON.parse` throws.
   */
  datatype Host = Host(
    qsStringify: (Value, map<string, Value>) -> string,
    toFormData: (Value, map<string, Value>) -> Value,
    hasFile: Value -> bool,
    jsonStringify: Value -> string,
    jsonParse: Value -> Option<Value>,
    interpolate: (string, Value) -> string,
    getQuery: string -> Value,
    pathGet: (Value, string) -> Value,
    numToString: int -> string,
    isExpired: (Value, int) -> bool,
    callGenerator: (FnId, ReqOption) -> Value,
    callOptionHook: (FnId, ReqOption) -> ReqOption,
    callSuccessHook: (FnId, Value, ReqOption, Response) -> Value,
    callErrorHook: (FnId, Option<Response>, ReqOption, Error) -> Value
  )

  /**
   * `Number#toString` never yields "" and `isExpired` reads the instant it
   * wrote back, reporting expiry once the clock has reached it.
   */
  ghost predicate ClockAgrees(host: Host) {
    && (forall t: int :: host.numToString(t) != "")
    && (forall t: int, now: int {:trigger host.isExpired(Str(host.numToString(t)), now)} ::
          host.isExpired(Str(host.numToString(t)), now) <==> now >= t)
  }

  /** `setConfig`: replaces the domain table (an absent one becomes `{}`) and the release flag. */
  function SetConfig(c: Client, domains: Option<map<string, string>>, isRelease: Value): (r: Client)
    ensures r.domains == (if domains.Some? then domains.value else map[])
    ensures r.isRelease == isRelease
    ensures r.(domains := c.domains, isRelease := c.isRelease) == c
  {
    c.(domains := domains.GetOr(map[]), isRelease := isRelease)
  }

  /** `new Request(config)`: no hooks, then `setConfig(config)`. */
  function NewClient(domains: Option<map<string, string>>, isRelease: Value): (r: Client)
    ensures r.domains == domains.GetOr(map[]) && r.isRelease == isRelease
    ensures r.onPreRequest.None? && r.onRequest.None? && r.onSuccess.None?
    ensures r.onError.None? && r.onFinish.None?
  {
    SetConfig(Client(map[], Undefined, None, None, None, None, None), domains, isRelease)
  }
}

=== FILE: payload.dfy ===
/**
 * Payload selection (`getFetchOption`): the body, the Content-Type header
 * and the fixed credentials policy of the network call.
 */
module Payload {

  import opened Wrappers
  import opened JsValue
  import opened Strings
  import opened Options
  import opened Url

  const FormContentType: string := "application/x-www-form-urlencoded"
  const JsonContentType: string := "application/json"

  /** The keys `getFetchOption` writes after spreading `fetchOptions`, so a `fetchOptions` entry under them is lost. */
  const ReservedKeys: set<string> := {"signal", "url", "method", "headers", "body", "credentials"}

  /** The options handed to the transport. */
  datatype FetchOption = FetchOption(
    passthrough: map<string, Value>,
    url: string,
    httpMethod: string,
    headers: map<string, string>,
    body: Value,
    credentials: string
  )

  /** A body with the headers that go with it. */
  datatype Payload = Payload(body: Value, headers: map<string, string>)

  /** `/GET|HEAD|OPTIONS/.test(method)`: a substring test, so "FORGET" counts as bodiless too. */
  predicate IsBodiless(httpMethod: string) {
    Contains(httpMethod, "GET") || Contains(httpMethod, "HEAD") || Contains(httpMethod, "OPTIONS")
  }

  /** A body is computed only when none is given, `data` is truthy and the method may carry one. */
  predicate ComputesBody(o: ReqOption, httpMethod: string) {
    !Truthy(o.body) && Truthy(o.data) && !IsBodiless(httpMethod)
  }

  /** `contentType = 'json'`. */
  function ContentType(o: ReqOption): string {
    o.contentType.GetOr("json")
  }

  /** The branch chosen for a computed body. */
  datatype Encoding = PassThrough | Multipart | UrlEncoded | JsonText | Unencoded

  function EncodingOf(host: Host, o: ReqOption): Encoding {
    if o.data.Binary? then PassThrough
    else if host.hasFile(o.data) || ContentType(o) == "form-data" then Multipart
    else if ContentType(o) == "form" then UrlEncoded
    else if ContentType(o) == "json" then JsonText
    else Unencoded
  }

  /**
   * The body and headers: unchanged when no body is computed; otherwise
   * binary data passes through, files or "form-data" become multipart,
   * "form" becomes url-encoded text and "json" becomes JSON text, the last
   * two setting the matching Content-Type. String data is never re-encoded
   * as text.
   */
  function BuildBody(host: Host, o: ReqOption, httpMethod: string): (p: Payload)
    ensures !ComputesBody(o, httpMethod) ==> p == Payload(o.body, o.headers)
    ensures ComputesBody(o, httpMethod) ==> match EncodingOf(host, o)
      case PassThrough => p == Payload(o.data, o.headers)
      case Multipart => p == Payload(host.toFormData(o.data, QsOptions(o.qsOptions)), o.headers)
      case UrlEncoded =>
        && p.headers == o.headers["Content-Type" := FormContentType]
        && p.body == (if o.data.Str? then o.data else Str(host.qsStringify(o.data, QsOptions(o.qsOptions))))
      case JsonText =>
        && p.headers == o.headers["Content-Type" := JsonContentType]
        && p.body == (if o.data.Str? then o.data else Str(host.jsonStringify(o.data)))
      case Unencoded => p == Payload(o.body, o.headers)
  {
    if !ComputesBody(o, httpMethod) then Payload(o.body, o.headers)
    else
      var qs := QsOptions(o.qsOptions);
      if o.data.Binary? then Payload(o.data, o.headers)
      else if host.hasFile(o.data) || ContentType(o) == "form-data" then
        Payload(host.toFormData(o.data, qs), o.headers)
      else if ContentType(o) == "form" then
        Payload(if o.data.Str? then o.data else Str(host.qsStringify(o.data, qs)),
                o.headers["Content-Type" := FormContentType])
      else if ContentType(o) == "json" then
        Payload(if o.data.Str? then o.data else Str(host.jsonStringify(o.data)),
                o.headers["Content-Type" := JsonContentType])
      else Payload(o.body, o.headers)
  }

  /** Only the Content-Type header can change, and only for "form" and "json" bodies. */
  lemma HeadersOnlyContentType(host: Host, o: ReqOption, httpMethod: string, k: string)
    requires k != "Content-Type"
    ensures var p := BuildBody(host, o, httpMethod);
      (k in p.headers <==> k in o.headers) && (k in o.headers ==> p.headers[k] == o.headers[k])
    ensures var p := BuildBody(host, o, httpMethod);
      p.headers != o.headers ==> ComputesBody(o, httpMethod) && EncodingOf(host, o) in {UrlEncoded, JsonText}
  {
  }

  /**
   * A JSON body decodes back to the data it was built from, whenever
   * `JSON.parse` inverts `JSON.stringify` on that data.
   */
  lemma JsonBodyRoundTrip(host: Host, o: ReqOption, httpMethod: string)
    requires ComputesBody(o, httpMethod) && EncodingOf(host, o) == JsonText
    requires !o.data.Str? ==> host.jsonParse(Str(host.jsonStringify(o.data))) == Some(o.data)
    ensures var p := BuildBody(host, o, httpMethod);
      p.headers["Content-Type"] == JsonContentType && p.body.Str?
      && (o.data.Str? ==> p.body == o.data)
      && (!o.data.Str? ==> host.jsonParse(p.body) == Some(o.data))
  {
  }

  /** Feeding a computed, truthy body back in leaves it alone: a given body is never rebuilt. */
  lemma BodyStable(host: Host, o: ReqOption, httpMethod: string)
    requires Truthy(BuildBody(host, o, httpMethod).body)
    ensures var p := BuildBody(host, o, httpMethod);
      BuildBody(host, o.(body := p.body, headers := p.headers), httpMethod) == p
  {
  }

  /**
   * `getFetchOption`: the resolved URL and method, the payload, every
   * `fetchOptions` entry not overwritten, and credentials forced to
   * "include" whatever `fetchOptions` says.
   */
  function BuildFetchOption(host: Host, instanceDomains: map<string, string>, o: ReqOption): (f: FetchOption)
    ensures f.credentials == "include"
    ensures Target(f.url, f.httpMethod) == ResolveUrl(host, instanceDomains, o)
    ensures Payload(f.body, f.headers) == BuildBody(host, o, f.httpMethod)
    ensures forall k :: k in f.passthrough <==> k in o.fetchOptions && k !in ReservedKeys
    ensures forall k :: k in f.passthrough ==> f.passthrough[k] == o.fetchOptions[k]
  {
    var target := ResolveUrl(host, instanceDomains, o);
    var payload := BuildBody(host, o, target.httpMethod);
    FetchOption(o.fetchOptions - ReservedKeys, target.url, target.httpMethod,
                payload.headers, payload.body, "include")
  }
}

=== FILE: strings.dfy ===
/**
 * The string primitives the request engine relies on: `indexOf`,
 * `split` on one character and ASCII `toUpperCase`.
 */
module Strings {

  /** `sub` occurs in `s` starting at index `i`. */
  ghost predicate OccursAt(s: string, sub: string, i: nat) {
    i + |sub| <= |s| && s[i..i + |sub|] == sub
  }

  /** Search for `sub` in `s` from index `from` on; -1 when absent. */
  function IndexFrom(s: string, sub: string, from: nat): (r: int)
    requires from <= |s|
    ensures r == -1 || (from <= r && OccursAt(s, sub, r))
    ensures r == -1 ==> forall i: nat :: from <= i ==> !OccursAt(s, sub, i)
    ensures r != -1 ==> forall i: nat :: from <= i < r ==> !OccursAt(s, sub, i)
    decreases |s| - from
  {
    if from + |sub| <= |s| && s[from..from + |sub|] == sub then from
    else if from == |s| then -1
    else IndexFrom(s, sub, from + 1)
  }

  /** `s.indexOf(sub)`: the first index at which `sub` occurs, or -1. */
  function IndexOf(s: string, sub: string): (r: int)
    ensures r == -1 <==> forall i: nat :: !OccursAt(s, sub, i)
    ensures r != -1 ==> 0 <= r && OccursAt(s, sub, r) && forall i: nat :: i < r ==> !OccursAt(s, sub, i)
  {
    IndexFrom(s, sub, 0)
  }

  /** `s.indexOf(sub) > -1`, which is also what the regular expression `/sub/.test(s)` decides. */
  predicate Contains(s: string, sub: string) {
    IndexOf(s, sub) != -1
  }

  /** The index of the first `c` in `s`. */
  function FirstIndex(s: string, c: char): (i: nat)
    requires c in s
    ensures i < |s| && s[i] == c && c !in s[..i]
  {
    if s[0] == c then 0
    else
      assert c in s[1..] by { assert s == [s[0]] + s[1..]; }
      var j := FirstIndex(s[1..], c);
      assert s[..j + 1] == [s[0]] + s[1..][..j];
      j + 1
  }

  /** The inverse of `Split`: the parts glued back with `c` between them. */
  function Join(parts: seq<string>, c: char): string
    requires |parts| >= 1
  {
    if |parts| == 1 then parts[0] else parts[0] + [c] + Join(parts[1..], c)
  }

  /** `s.split(c)` for a one-character separator. */
  function Split(s: string, c: char): (parts: seq<string>)
    ensures |parts| >= 1
    ensures forall k :: 0 <= k < |parts| ==> c !in parts[k]
    ensures Join(parts, c) == s
    decreases |s|
  {
    if c !in s then [s]
    else
      var i := FirstIndex(s, c);
      var rest := Split(s[i + 1..], c);
      var parts := [s[..i]] + rest;
      assert parts[1..] == rest;
      assert s == s[..i] + [c] + s[i + 1..];
      parts
  }

  /** `Split` undoes `Join` whenever no part contains the separator. */
  lemma {:induction false} SplitJoin(parts: seq<string>, c: char)
    requires |parts| >= 1
    requires forall k :: 0 <= k < |parts| ==> c !in parts[k]
    ensures Split(Join(parts, c), c) == parts
    decreases |parts|
  {
    if |parts| == 1 {
    } else {
      var s := Join(parts, c);
      var tail := Join(parts[1..], c);
      assert s == parts[0] + [c] + tail;
      assert c in s by { assert s[|parts[0]|] == c; }
      var i := FirstIndex(s, c);
      assert i == |parts[0]|;
      assert s[..i] == parts[0];
      assert s[i + 1..] == tail;
      SplitJoin(parts[1..], c);
      assert [parts[0]] + parts[1..] == parts;
    }
  }

  /** The first piece of `s.split(c)`: everything before the first `c`. */
  lemma SplitHead(s: string, c: char)
    ensures c !in s ==> Split(s, c) == [s]
    ensures c in s ==> Split(s, c)[0] == s[..FirstIndex(s, c)] && |Split(s, c)| >= 2
  {
    if c in s {
      var rest := Split(s[FirstIndex(s, c) + 1..], c);
      assert |rest| >= 1;
    }
  }

  /** ASCII case mapping of `String.prototype.toUpperCase`. */
  function UpperChar(ch: char): char {
    if 'a' <= ch <= 'z' then (ch as int - 32) as char else ch
  }

  /** `s.toUpperCase()` on ASCII letters. */
  function ToUpper(s: string): (r: string)
    ensures |r| == |s|
    ensures forall i :: 0 <= i < |s| ==> r[i] == UpperChar(s[i])
  {
    seq(|s|, i requires 0 <= i < |s| => UpperChar(s[i]))
  }

  /** An occurrence inside either half is an occurrence inside the concatenation. */
  lemma ContainsConcat(a: string, b: string, sub: string)
    ensures Contains(a, sub) ==> Contains(a + b, sub)
    ensures Contains(b, sub) ==> Contains(a + b, sub)
  {
    if Contains(a, sub) {
      var i := IndexOf(a, sub);
      assert (a + b)[i..i + |sub|] == a[i..i + |sub|];
      assert OccursAt(a + b, sub, i);
    }
    if Contains(b, sub) {
      var i := IndexOf(b, sub);
      assert (a + b)[|a| + i..|a| + i + |sub|] == b[i..i + |sub|];
      assert OccursAt(a + b, sub, |a| + i);
    }
  }

  /** Searching for a one-character string is testing membership of that character. */
  lemma ContainsChar(s: string, c: char)
    ensures Contains(s, [c]) <==> c in s
  {
    if c in s {
      var i := FirstIndex(s, c);
      assert OccursAt(s, [c], i);
    }
    if Contains(s, [c]) {
      var i := IndexOf(s, [c]);
      assert s[i..i + 1] == [c];
      assert s[i] == c;
    }
  }

  /**
   * When `c` occurs in `s`, the first two pieces of `s.split(c)` are the
   * text before the first `c` and the text between the first and the second.
   */
  lemma SplitFirstTwo(s: string, c: char)
    requires c in s
    ensures |Split(s, c)| >= 2
    ensures var p := Split(s, c);
      && p[0] + [c] + p[1] <= s
      && (|s| == |p[0]| + 1 + |p[1]| || s[|p[0]| + 1 + |p[1]|] == c)
  {
    SplitHead(s, c);
    JoinFirstTwo(Split(s, c), c);
  }

  /** The first two parts, and the separator between them, start the joined text. */
  lemma JoinFirstTwo(p: seq<string>, c: char)
    requires |p| >= 2
    ensures var s := Join(p, c);
      && p[0] + [c] + p[1] <= s
      && (|s| == |p[0]| + 1 + |p[1]| || s[|p[0]| + 1 + |p[1]|] == c)
  {
    var rest: string := if |p| > 2 then [c] + Join(p[2..], c) else [];
    JoinTail(p, c);
    var head := p[0] + [c] + p[1];
    assert Join(p, c) == head + rest;
  }

  /** Unfolding `Join` twice. */
  lemma JoinTail(p: seq<string>, c: char)
    requires |p| >= 2
    ensures Join(p, c) == p[0] + [c] + (p[1] + (if |p| > 2 then [c] + Join(p[2..], c) else []))
  {
    if |p| > 2 {
      assert p[1..][1..] == p[2..];
      assert Join(p[1..], c) == p[1] + [c] + Join(p[2..], c);
    } else {
      assert Join(p[1..], c) == p[1];
    }
  }

  /** A two-character string occurs only where its two characters stand side by side. */
  lemma NotContainsPair(s: string, sub: string)
    requires |sub| == 2
    requires forall i :: 0 <= i < |s| - 1 ==> !(s[i] == sub[0] && s[i + 1] == sub[1])
    ensures !Contains(s, sub)
  {
    forall i: nat
      ensures !OccursAt(s, sub, i)
    {
      if i + 2 <= |s| {
        assert s[i..i + 2][0] == s[i] && s[i..i + 2][1] == s[i + 1];
      }
    }
  }
}

=== FILE: transport.dfy ===
/**
 * The fetch transport (`fetchSourceCtrl`) seen from the engine: the network
 * answer is an input, and what is modelled is how it is classified and
 * routed through the success or error pipeline.
 */
module Transport {

  import opened Wrappers
  import opened JsValue
  import opened Options
  import opened Normalize
  import opened Hooks

  /**
   * What the network did: no answer at all, or an answer with a status,
   * the outcome of reading its body as JSON (`Failure` when `json()` throws)
   * and its other fields.
   */
  datatype NetResult =
    | Unreachable(cause: Value)
    | Answered(status: int, body: Result<Value, Value>, meta: map<string, Value>)

  /** The network call the transport makes for an option. */
  function CallOf(o: ReqOption): Event {
    TransportCall(o.url.GetOr(""), o.httpMethod.GetOr(""))
  }

  /** The response object of an answer, before its body is read. */
  function Answer(status: int, meta: map<string, Value>, data: Value): Response {
    Response(data, meta["status" := Num(status)])
  }

  /** The answer is routed to the error pipeline. */
  predicate Fails(net: NetResult) {
    net.Unreachable? || net.body.Failure? || IsErrorStatus(net.status)
  }

  /**
   * The transport with each failure routed through the error pipeline once:
   * a network failure with the empty response, an unreadable body with the
   * normalised bodiless response, a status outside 101..399 with the
   * normalised response; any other answer goes through the success hooks.
   */
  function Fetch(host: Host, c: Client, o: ReqOption, net: NetResult): (r: Run<Settled>)
    ensures |r.events| >= 1 && r.events[0] == CallOf(o)
    ensures r.value.Rejected? <==> Fails(net)
    ensures r.value.Rejected? ==> r.value.thrown.option == o && !r.value.thrown.error.Rethrown?
    ensures r.value.Rejected? ==> FinishCount(r.events) == Slot(c.onFinish)
    ensures net.Answered? && net.body.Success? && IsErrorStatus(net.status) ==>
      r.value.thrown == ErrorSource(o, Some(WrapResponse(host, Some(Answer(net.status, net.meta, net.body.value)), false)),
                                    StatusOutOfBand(net.status))
    ensures net.Unreachable? ==>
      var e := ErrorCtrl(host, c, NetworkError(net.cause), o, Some(EmptyResponse()));
      r == Run(Rejected(ErrorSource(o, Some(EmptyResponse()), NetworkError(net.cause))), [CallOf(o)] + e.events)
    ensures net.Answered? && net.body.Failure? ==>
      var resp := WrapResponse(host, Some(Answer(net.status, net.meta, Undefined)), false);
      var e := ErrorCtrl(host, c, BodyUnreadable(net.body.error), o, Some(resp));
      r == Run(Rejected(ErrorSource(o, Some(resp), BodyUnreadable(net.body.error))), [CallOf(o)] + e.events)
    ensures net.Answered? && net.body.Success? && IsErrorStatus(net.status) ==>
      var resp := WrapResponse(host, Some(Answer(net.status, net.meta, net.body.value)), false);
      r.events == [CallOf(o)] + ErrorCtrl(host, c, StatusOutOfBand(net.status), o, Some(resp)).events
    ensures r.value.Resolved? ==>
      var s := SuccessCtrl(host, c, Answer(net.status, net.meta, net.body.value), o);
      r.value.response == s.value && r.events == [CallOf(o)] + s.events
  {
    var failed: Option<(Error, Response)> :=
      match net
      case Unreachable(cause) => Some((NetworkError(cause), EmptyResponse()))
      case Answered(status, Failure(cause), meta) =>
        Some((BodyUnreadable(cause), WrapResponse(host, Some(Answer(status, meta, Undefined)), false)))
      case Answered(status, Success(v), meta) =>
        if IsErrorStatus(status) then
          Some((StatusOutOfBand(status), WrapResponse(host, Some(Answer(status, meta, v)), false)))
        else None;
    if failed.Some? then
      var e := ErrorCtrl(host, c, failed.value.0, o, Some(failed.value.1));
      ErrorFinishesOnce(host, c, failed.value.0, o, Some(failed.value.1));
      FinishCountAppend([CallOf(o)], e.events);
      Run(Rejected(e.value), [CallOf(o)] + e.events)
    else
      var s := SuccessCtrl(host, c, Answer(net.status, net.meta, net.body.value), o);
      Run(Resolved(s.value), [CallOf(o)] + s.events)
  }

  /**
   * The transport as written: for a status outside the band the error
   * pipeline throws inside the `try` whose `catch` then runs the pipeline a
   * second time, on the thrown object.
   */
  function FetchAsWritten(host: Host, c: Client, o: ReqOption, net: NetResult): (r: Run<Settled>)
    ensures |r.events| >= 1 && r.events[0] == CallOf(o)
    ensures r.value.Rejected? <==> Fails(net)
    ensures !(net.Answered? && net.body.Success? && IsErrorStatus(net.status)) ==> r == Fetch(host, c, o, net)
    ensures net.Answered? && net.body.Success? && IsErrorStatus(net.status) ==>
      && r.value.thrown.option == o
      && r.value.thrown.response == Some(WrapResponse(host, Some(Answer(net.status, net.meta, net.body.value)), false))
      && r.value.thrown.error == Rethrown(Fetch(host, c, o, net).value.thrown)
      && FinishCount(r.events) == 2 * Slot(c.onFinish)
    ensures net.Answered? && net.body.Success? && IsErrorStatus(net.status) ==>
      var resp := WrapResponse(host, Some(Answer(net.status, net.meta, net.body.value)), false);
      var first := ErrorCtrl(host, c, StatusOutOfBand(net.status), o, Some(resp));
      r.events == [CallOf(o)] + first.events + ErrorCtrl(host, c, Rethrown(first.value), o, Some(resp)).events
  {
    match net
    case Answered(status, Success(v), meta) =>
      if IsErrorStatus(status) then
        var resp := WrapResponse(host, Some(Answer(status, meta, v)), false);
        var first := ErrorCtrl(host, c, StatusOutOfBand(status), o, Some(resp));
        var again := WrapResponse(host, Some(resp), false);
        var second := ErrorCtrl(host, c, Rethrown(first.value), o, Some(again));
        WrapIdempotent(host, Some(Answer(status, meta, v)), false);
        ErrorFinishesOnce(host, c, StatusOutOfBand(status), o, Some(resp));
        ErrorFinishesOnce(host, c, Rethrown(first.value), o, Some(again));
        FinishCountAppend([CallOf(o)], first.events);
        FinishCountAppend([CallOf(o)] + first.events, second.events);
        Run(Rejected(second.value), [CallOf(o)] + first.events + second.events)
      else Fetch(host, c, o, net)
    case _ => Fetch(host, c, o, net)
  }

  /** Which transport a request composes: the one the engine ships, or the corrected one. */
  datatype Build = AsWritten | Corrected

  /** The transport of a build. */
  function Transmit(host: Host, c: Client, o: ReqOption, net: NetResult, build: Build): (r: Run<Settled>)
    ensures |r.events| >= 1 && r.events[0] == CallOf(o)
    ensures r.value.Rejected? <==> Fails(net)
    ensures r.value.Resolved? ==>
      r.value.response == SuccessCtrl(host, c, Answer(net.status, net.meta, net.body.value), o).value
    ensures build.Corrected? || !(net.Answered? && net.body.Success? && IsErrorStatus(net.status)) ==>
      r == Fetch(host, c, o, net)
  {
    if build.Corrected? then Fetch(host, c, o, net) else FetchAsWritten(host, c, o, net)
  }

  /**
   * The discrepancy: as written, an out-of-band status fires `onFinish`
   * twice where the corrected transport fires it once, and the thrown error
   * is the first thrown object, not the status error.
   */
  lemma DoubleErrorPipeline(host: Host, c: Client, o: ReqOption, status: int, v: Value, meta: map<string, Value>)
    requires IsErrorStatus(status) && c.onFinish.Some?
    ensures var net := Answered(status, Success(v), meta);
      && FinishCount(FetchAsWritten(host, c, o, net).events) == 2
      && FinishCount(Fetch(host, c, o, net).events) == 1
      && FetchAsWritten(host, c, o, net).value.thrown.error.Rethrown?
      && Fetch(host, c, o, net).value.thrown.error == StatusOutOfBand(status)
  {
    var net := Answered(status, Success(v), meta);
    var resp := WrapResponse(host, Some(Answer(status, meta, v)), false);
    ErrorFinishesOnce(host, c, StatusOutOfBand(status), o, Some(resp));
    FinishCountAppend([CallOf(o)], ErrorCtrl(host, c, StatusOutOfBand(status), o, Some(resp)).events);
  }

  /**
   * The error hooks of the doubled pipeline: the per-call `onError` fires in
   * both passes, once with the status error and once with the first thrown
   * object; the instance `onError` fires in each pass exactly when that
   * pass's per-call answer allows it.
   */
  lemma DoubleErrorHooks(host: Host, c: Client, o: ReqOption, status: int, v: Value, meta: map<string, Value>)
    requires IsErrorStatus(status)
    ensures var resp := Some(WrapResponse(host, Some(Answer(status, meta, v)), false));
      var thrown := ErrorSource(o, resp, StatusOutOfBand(status));
      var written := FetchAsWritten(host, c, o, Answered(status, Success(v), meta)).events;
      && (ErrorHook(CallHook, resp, StatusOutOfBand(status)) in written <==> o.onError.Some?)
      && (ErrorHook(CallHook, resp, Rethrown(thrown)) in written <==> o.onError.Some?)
      && (ErrorHook(InstanceHook, resp, StatusOutOfBand(status)) in written <==>
            InstanceErrorRuns(host, c, StatusOutOfBand(status), o, resp))
      && (ErrorHook(InstanceHook, resp, Rethrown(thrown)) in written <==>
            InstanceErrorRuns(host, c, Rethrown(thrown), o, resp))
  {
    var resp := Some(WrapResponse(host, Some(Answer(status, meta, v)), false));
    var thrown := ErrorSource(o, resp, StatusOutOfBand(status));
    var first := ErrorCtrl(host, c, StatusOutOfBand(status), o, resp);
    var second := ErrorCtrl(host, c, Rethrown(thrown), o, resp);
    assert first.value == thrown;
    var written := FetchAsWritten(host, c, o, Answered(status, Success(v), meta)).events;
    assert written == [CallOf(o)] + first.events + second.events;
    OtherPassSilent(host, c, StatusOutOfBand(status), Rethrown(thrown), o, resp);
    OtherPassSilent(host, c, Rethrown(thrown), StatusOutOfBand(status), o, resp);
    InThreeParts(CallOf(o), first.events, second.events, ErrorHook(CallHook, resp, StatusOutOfBand(status)));
    InThreeParts(CallOf(o), first.events, second.events, ErrorHook(CallHook, resp, Rethrown(thrown)));
    InThreeParts(CallOf(o), first.events, second.events, ErrorHook(InstanceHook, resp, StatusOutOfBand(status)));
    InThreeParts(CallOf(o), first.events, second.events, ErrorHook(InstanceHook, resp, Rethrown(thrown)));
  }

  /** One pass of the error pipeline logs no hook event carrying another error. */
  lemma OtherPassSilent(host: Host, c: Client, err: Error, other: Error, o: ReqOption, resp: Option<Response>)
    requires err != other
    ensures ErrorHook(CallHook, resp, other) !in ErrorCtrl(host, c, err, o, resp).events
    ensures ErrorHook(InstanceHook, resp, other) !in ErrorCtrl(host, c, err, o, resp).events
  {
  }

  /** Membership in a trace made of one event and two pieces. */
  lemma InThreeParts(x: Event, a: seq<Event>, b: seq<Event>, e: Event)
    ensures e in [x] + a + b <==> e == x || e in a || e in b
  {
  }
}

=== FILE: url.dfy ===
/**
 * URL resolution (`getUrlByOption`): split an embedded method off the URL,
 * add the domain prefix, interpolate templates and append the GET query.
 */
module Url {

  import opened Wrappers
  import opened JsValue
  import opened Strings
  import opened Options

  /**
   * The text between the brackets of `/[GET|POST|PUT|DELETE|PATCH|HEAD|OPTIONS] /`.
   * Inside brackets it is a character class: any one of its characters matches.
   */
  const MethodAlternation: string := "GET|POST|PUT|DELETE|PATCH|HEAD|OPTIONS"

  /** The regular-expression test deciding whether the URL embeds a method. */
  predicate HasEmbeddedMethod(url: string) {
    exists i :: 0 <= i < |url| - 1 && url[i] in MethodAlternation && url[i + 1] == ' '
  }

  /** The resolved URL and HTTP method. */
  datatype Target = Target(url: string, httpMethod: string)

  /**
   * The method split: with an embedded method, the method is the text before
   * the first space (kept as written) and the path the text up to the next
   * space; otherwise the URL is kept and the method is the given one, upper-cased.
   */
  function SplitMethod(url: string, givenMethod: string): (t: Target)
    ensures HasEmbeddedMethod(url) ==>
      && ' ' !in t.httpMethod && ' ' !in t.url
      && t.httpMethod + " " + t.url <= url
      && (|url| == |t.httpMethod| + 1 + |t.url| || url[|t.httpMethod| + 1 + |t.url|] == ' ')
    ensures !HasEmbeddedMethod(url) ==> t.url == url && t.httpMethod == ToUpper(givenMethod)
  {
    if HasEmbeddedMethod(url) then
      assert ' ' in url by {
        var i :| 0 <= i < |url| - 1 && url[i] in MethodAlternation && url[i + 1] == ' ';
      }
      SplitFirstTwo(url, ' ');
      var parts := Split(url, ' ');
      Target(parts[1], parts[0])
    else
      Target(url, ToUpper(givenMethod))
  }

  /** `domains || this.domains`: the per-call table wins whenever it is given. */
  function DomainTable(o: ReqOption, instanceDomains: map<string, string>): map<string, string> {
    if o.domains.Some? then o.domains.value else instanceDomains
  }

  /** The template-literal rendering of `apiDomains[domain]`: a missing alias renders as "undefined". */
  function DomainPrefix(table: map<string, string>, alias: string): string {
    if alias in table then table[alias] else "undefined"
  }

  /**
   * The domain prefix: a path containing "//" is kept as it is; any other
   * path gets the alias's prefix and a slash in front of it.
   */
  function PrefixDomain(path: string, table: map<string, string>, alias: string): (r: string)
    ensures r == path <==> Contains(path, "//")
    ensures !Contains(path, "//") ==> r == DomainPrefix(table, alias) + "/" + path
    ensures |path| <= |r| && r[|r| - |path|..] == path
  {
    if Contains(path, "//") then path else DomainPrefix(table, alias) + "/" + path
  }

  /** Once the prefix is absolute, prefixing a second time changes nothing. */
  lemma PrefixIdempotent(path: string, table: map<string, string>, alias: string)
    requires Contains(DomainPrefix(table, alias), "//")
    ensures PrefixDomain(PrefixDomain(path, table, alias), table, alias) == PrefixDomain(path, table, alias)
  {
    if !Contains(path, "//") {
      ContainsConcat(DomainPrefix(table, alias), "/" + path, "//");
      assert DomainPrefix(table, alias) + "/" + path == DomainPrefix(table, alias) + ("/" + path);
    }
  }

  /** An alias missing from the table still concatenates, giving "undefined/<path>". */
  lemma MissingAliasPrefix(path: string, table: map<string, string>, alias: string)
    requires alias !in table && !Contains(path, "//")
    ensures PrefixDomain(path, table, alias) == "undefined/" + path
  {
  }

  /** The values the GET query drops: undefined, null, "undefined" and "". */
  predicate IsBlank(v: Value) {
    v == Undefined || v == Null || v == Str("undefined") || v == Str("")
  }

  /** The URL's query part: the text between its first and second '?', or "" when it has no '?'. */
  function QueryPart(url: string): string {
    var parts := Split(url, '?');
    if |parts| >= 2 then parts[1] else ""
  }

  /**
   * The `omitBy` filter: a key survives exactly when its value is not blank
   * and the text `key=` does not already occur in the query part.
   */
  function FilterQuery(fields: map<string, Value>, queryStr: string): (kept: map<string, Value>)
    ensures forall k :: k in kept <==> k in fields && !IsBlank(fields[k]) && !Contains(queryStr, k + "=")
    ensures forall k :: k in kept ==> kept[k] == fields[k]
  {
    map k | k in fields && !(IsBlank(fields[k]) || IndexOf(queryStr, k + "=") > -1) :: fields[k]
  }

  /** The query-string options: the defaults, overridden key by key by `qsOptions`. */
  function QsOptions(qsOptions: map<string, Value>): map<string, Value> {
    map["encode" := Bool(false), "arrayFormat" := Str("indices"), "encodeValuesOnly" := Bool(false)] + qsOptions
  }

  /**
   * Appending the GET query: the URL is kept as a prefix, followed by '?'
   * when it has no '?' yet and '&' otherwise (even when nothing survives
   * the filter), followed by the encoding of the surviving keys.
   */
  function AppendQuery(host: Host, url: string, fields: map<string, Value>, qs: map<string, Value>): (r: string)
    ensures |r| > |url| && r[..|url|] == url
    ensures r[|url|] == (if '?' in url then '&' else '?')
    ensures r[|url| + 1..] == host.qsStringify(Obj(FilterQuery(fields, QueryPart(url))), qs)
  {
    ContainsChar(url, '?');
    var sep := if IndexOf(url, "?") == -1 then '?' else '&';
    var query := host.qsStringify(Obj(FilterQuery(fields, QueryPart(url))), qs);
    assert sep == (if '?' in url then '&' else '?');
    var r := url + [sep] + query;
    assert r[..|url|] == url && r[|url|] == sep && r[|url| + 1..] == query;
    r
  }

  /** The URL after the method split, the domain prefix and template interpolation. */
  function Located(host: Host, instanceDomains: map<string, string>, o: ReqOption): string {
    var split := SplitMethod(o.url.GetOr(""), o.httpMethod.GetOr("GET"));
    var prefixed := PrefixDomain(split.url, DomainTable(o, instanceDomains), o.domain.GetOr("api"));
    if Contains(prefixed, "$") then host.interpolate(prefixed, o.data) else prefixed
  }

  /**
   * `getUrlByOption`: the query part is appended only for the method "GET"
   * with plain-object data; any other method or data leaves the URL alone.
   */
  function ResolveUrl(host: Host, instanceDomains: map<string, string>, o: ReqOption): (t: Target)
    ensures t.httpMethod == SplitMethod(o.url.GetOr(""), o.httpMethod.GetOr("GET")).httpMethod
    ensures t.httpMethod == "GET" && IsPlainObject(o.data) ==>
      t.url == AppendQuery(host, Located(host, instanceDomains, o), o.data.fields, QsOptions(o.qsOptions))
    ensures !(t.httpMethod == "GET" && IsPlainObject(o.data)) ==> t.url == Located(host, instanceDomains, o)
  {
    var split := SplitMethod(o.url.GetOr(""), o.httpMethod.GetOr("GET"));
    var located := Located(host, instanceDomains, o);
    if split.httpMethod == "GET" && IsPlainObject(o.data) then
      Target(AppendQuery(host, located, o.data.fields, QsOptions(o.qsOptions)), split.httpMethod)
    else
      Target(located, split.httpMethod)
  }

  /**
   * The domain table falls back in order: a per-call `domains` wins and the
   * instance table is then irrelevant; without one, the instance table acts
   * exactly as if it had been given per call.
   */
  lemma DomainsFallBack(host: Host, instanceDomains: map<string, string>, other: map<string, string>, o: ReqOption)
    ensures o.domains.Some? ==> ResolveUrl(host, instanceDomains, o) == ResolveUrl(host, other, o)
    ensures o.domains.None? ==>
      ResolveUrl(host, instanceDomains, o) == ResolveUrl(host, other, o.(domains := Some(instanceDomains)))
  {
  }

  /** A missing `domain` alias resolves exactly as the alias "api" does. */
  lemma DomainDefaultsToApi(host: Host, instanceDomains: map<string, string>, o: ReqOption)
    requires o.domain.None?
    ensures ResolveUrl(host, instanceDomains, o) == ResolveUrl(host, instanceDomains, o.(domain := Some("api")))
  {
  }

  /** `{url: "GET rtapi/ping"}` against the table `{api: "https://host"}` resolves to `GET https://host/rtapi/ping`. */
  lemma PingScenario(host: Host)
    ensures ResolveUrl(host, map["api" := "https://host"], EmptyOption().(url := Some("GET rtapi/ping")))
         == Target("https://host/rtapi/ping", "GET")
  {
    var o := EmptyOption().(url := Some("GET rtapi/ping"));
    var table := map["api" := "https://host"];
    assert o.url.GetOr("") == "GET rtapi/ping" && o.httpMethod.GetOr("GET") == "GET";
    assert o.domain.GetOr("api") == "api" && DomainTable(o, table) == table;
    PingSplit();
    PingPath();
    assert PrefixDomain("rtapi/ping", table, "api") == "https://host" + "/" + "rtapi/ping";
    PingNoTemplate();
    assert Located(host, table, o) == "https://host" + "/" + "rtapi/ping";
    assert !IsPlainObject(o.data);
    PingLiteral();
  }

  /** The prefixed scenario URL, as one literal. */
  lemma PingLiteral()
    ensures "https://host" + "/" + "rtapi/ping" == "https://host/rtapi/ping"
  {
  }

  /** The scenario's URL splits into the method and the path. */
  lemma PingSplit()
    ensures SplitMethod("GET rtapi/ping", "GET") == Target("rtapi/ping", "GET")
  {
    var url := "GET rtapi/ping";
    assert HasEmbeddedMethod(url) by { assert url[2] in MethodAlternation && url[3] == ' '; }
    assert Join(["GET", "rtapi/ping"], ' ') == url;
    assert ' ' !in "GET" && ' ' !in "rtapi/ping";
    SplitJoin(["GET", "rtapi/ping"], ' ');
  }

  /** The scenario's path is relative, so it gets the domain prefix. */
  lemma PingPath()
    ensures !Contains("rtapi/ping", "//")
  {
    var path := "rtapi/ping";
    forall j | 0 <= j < |path| - 1
      ensures !(path[j] == '/' && path[j + 1] == '/')
    {
      if path[j] == '/' { assert j == 5; }
    }
    NotContainsPair(path, "//");
  }

  /** The scenario's prefixed URL holds no template. */
  lemma PingNoTemplate()
    ensures !Contains("https://host" + "/" + "rtapi/ping", "$")
  {
    var full := "https://host" + "/" + "rtapi/ping";
    assert '$' !in full by {
      assert full == "https://host/rtapi/ping";
    }
    ContainsChar(full, '$');
  }

  /**
   * `"GET items?x=1"` with data `{x: "1", y: 2}`: `x` is already in the
   * query, so only `y` is encoded, after an '&'.
   */
  lemma DuplicateKeyScenario(host: Host, qs: map<string, Value>)
    ensures AppendQuery(host, "https://host/items?x=1", map["x" := Str("1"), "y" := Num(2)], qs)
         == "https://host/items?x=1" + "&" + host.qsStringify(Obj(map["y" := Num(2)]), qs)
  {
    var url := "https://host/items?x=1";
    var fields := map["x" := Str("1"), "y" := Num(2)];
    var r := AppendQuery(host, url, fields, qs);
    QueryOfItems();
    DuplicateFilter();
    assert '?' in url by { assert url[18] == '?'; }
    assert r == r[..|url|] + [r[|url|]] + r[|url| + 1..];
  }

  /** `x` is dropped because "x=" occurs in the query; `y` survives. */
  lemma DuplicateFilter()
    ensures FilterQuery(map["x" := Str("1"), "y" := Num(2)], "x=1") == map["y" := Num(2)]
  {
    assert OccursAt("x=1", "x" + "=", 0);
    assert !Contains("x=1", "y" + "=") by {
      assert 'y' !in "x=1";
      NotContainsPair("x=1", "y" + "=");
    }
  }

  /** The scenario URL's query part is "x=1". */
  lemma QueryOfItems()
    ensures QueryPart("https://host/items?x=1") == "x=1"
  {
    var base, query := "https://host/items", "x=1";
    assert '?' !in base && '?' !in query;
    SplitJoin([base, query], '?');
    assert Join([base, query], '?') == "https://host/items?x=1";
  }

  /**
   * The duplicate test is a substring test: key `d` is dropped because the
   * query already holds `id=`.
   */
  lemma SubstringKeyQuirk()
    ensures "d" !in FilterQuery(map["d" := Num(1)], "id=5")
  {
    assert OccursAt("id=5", "d" + "=", 1);
  }
}

=== FILE: wrappers.dfy ===
/** Optional values and results shared by the model. */
module Wrappers {

  /** A value that may be missing; `None` stands for JavaScript's `undefined`. */
  datatype Option<+T> = None | Some(value: T) {

    /** Returns the carried value, or `default` when there is none. */
    function GetOr(default: T): T
    {
      match this
      case Some(v) => v
      case None => default
    }
  }

  /** Either a value or an error. */
  datatype Result<+R, +E> = Success(value: R) | Failure(error: E)
}
